=== FILE: README.md ===
# Falling-block game state, modelled in Dafny

This project models the game-state core of `tetris.py`, a single-file falling-block game. The game follows the Tetris Guideline and its Super Rotation System wall kicks. The model covers:

- the shape table of the seven tetrominoes;
- the piece operations: turning, moving, dropping, the collision test, the grounded test and rotation with wall kicks;
- the board operations: locking a piece into the grid, the ghost projection, and line clearing with scoring and levelling;
- the per-frame session step: hold, next piece, the key dispatch, the lock delay, gravity and game over.

Everything is immutable data and pure functions. The one exception is the collision test, which is also written as the game's own loop (a method). The modules follow the program's classes:

- `Blocks` (blocks.dfy): block kinds, the 10×20 grid, the bitmaps and bounding boxes.
- `Tetromino` (tetromino.dfy): the piece record and its operations.
- `Playfield` (playfield.dfy): locking a piece into the grid, the ghost, and line clearing.
- `Game` (game.dfy): the session record, key presses, locking, gravity and `Update`.

Modelling choices:

- **Time.** Time is an integer number of milliseconds, passed in as `now`. Every clock reading within one frame uses the same `now`. The lock delay of 0.5 s is `LockDelay = 500`. A lock timer of 0 or less means "not running", because the game tests `lock_start > 0`.
- **Drop interval.** The level's drop interval (`time_constant`) is an integer parameter `interval`.
- **Random kinds.** The game draws a random kind in two places. These draws are parameters: `holdDraw` is the kind a first hold brings in, and `lockDraw` is the kind drawn when a piece locks.
- **Keys.** Keys form the closed type `Key`. The left arrow and `q` turn clockwise; the right arrow and `e` turn counterclockwise. `a`/`d` shift, `s`/down drop one row, space drops hard, and tab holds.
- **Python row indexing.** `check_grounded` and `transfer_piece` read row `-1` as the bottom row. A wall kick can lift a piece above the field, and the game then runs `check_grounded` there. The model therefore includes this wrap (`Tetromino.PyRow`, `Tetromino.WrapGrounded`) and does not rule it out: a piece above the field can be grounded by a filled cell near the bottom (`Tetromino.WrapGroundsFreePiece`). The invariant `Game.Valid` (built on `Tetromino.Placed`) keeps every Python index in range.
- **Crashes.** More than four rows removed at one row index would index past the end of the score table, an uncaught `IndexError`. This is `None` from `Playfield.ClearLines` and `Crashed` from `Game.Lock`.
- **Hard drop.** Space makes at most 20 single-row drops, as the game's `for y in range(self.height)` loop does.

Two consequences of the line-clearing code that the model keeps:

- Two full rows at the bottom are both removed at row index 19 with a combo of 2. Together they score 3, not 1 + 3 (`Playfield.BottomRunScore`).
- The combo indexes the five-entry score table directly. A combo above 4 raises `IndexError`, which the model records as a crash.

## Model

| member | source | states |
|---|---|---|
| Blocks.EmptyGrid | tetris.py:192-195 | the new field is 20 rows of 10 cells, all empty |
| Blocks.BitByDivision | tetris.py:166 | reading bit i by shifting right i times equals reading it by one division by 2^i |
| Blocks.CoversIsBitmap | tetris.py:30-65 | the cell drawing of every (kind, angle) agrees with the game's bitmap, read at bit `(d-y-1)*d + d-x-1` |
| Blocks.ShapeTable | tetris.py:30-65 | every bitmap has exactly four set bits, all within its bounding box; the four O bitmaps are equal |
| Blocks.CoversInBox | tetris.py:136-142 | every covered cell lies in the bounding box: 4×4 for I, 2×2 for O, 3×3 otherwise |
| Blocks.SomeCell | tetris.py:30-65 | every shape covers at least one cell |
| Tetromino.TurnClockwise | tetris.py:114-120 | the angle after a clockwise turn is the next one modulo 4 |
| Tetromino.TurnCounterclockwise | tetris.py:122-128 | the angle after a counterclockwise turn is the previous one modulo 4 |
| Tetromino.TurnsInverse | tetris.py:114-128 | the two turns undo each other, and four turns either way restore the angle |
| Tetromino.MovesInverse | tetris.py:130-134 | moving left and right undo each other and change only the column; a drop changes only the row (and the drop clock) |
| Tetromino.CheckIntersection | tetris.py:159-173 | the game's row-by-row bitmap scan, with its early returns, answers exactly `Collides`: some covered cell is off the sides, below row 19, or on a filled cell at row 0 or below; cells above the field inside the columns are ignored |
| Tetromino.CheckRow | tetris.py:165-172 | one row of that scan reports a hit exactly when some cell of the row is covered and blocked |
| Tetromino.BelowFloorCollides | tetris.py:167-168 | a pose reaching below the floor always collides, whatever the grid holds |
| Tetromino.PyRow | tetris.py:152-153 | a row index from -20 to 19 read the Python way is a valid row |
| Tetromino.GroundedIffBlockedBelow | tetris.py:147-157 | the grounded scan holds when the pose one row lower collides; the converse holds when no cell is above row -1 |
| Tetromino.GroundedIffBlockedOrWrapped | tetris.py:147-157 | the grounded scan holds exactly when the pose one row lower collides or a cell above row -1 reads a filled cell through the Python wrap |
| Tetromino.CheckGrounded | tetris.py:147-157 | a piece whose row below is blocked, or that reads a filled cell through the wrap, gets its lock timer and drop clock set to now; a piece with neither gets its lock timer cleared and its drop clock kept (in particular when no cell is above row -1 and the row below is free); nothing else changes |
| Tetromino.WrapGroundsFreePiece | tetris.py:151-153 | a vertical I piece at (3, -3) over a field whose only filled cell is (5, 18) can fall a row, yet the grounded test reads row 18 and starts its lock timer |
| Tetromino.FreeIsPlaced | tetris.py:159-173 | a pose that does not collide, not far above the field, satisfies the piece invariant `Placed` |
| Tetromino.SpawnIsPlaced | tetris.py:218-219 | a new piece at column 4, row 0 or -1 satisfies `Placed` |
| Tetromino.Kicks | tetris.py:74-104 | each kick table row has five offsets, starting with (0, 0) |
| Tetromino.UpwardKicksFollowLevelKick | tetris.py:74-104 | every kick that lifts the piece lifts it by at most 2 rows, and comes after the kick with the same column shift and no lift |
| Tetromino.FirstFree | tetris.py:83-90 | the chosen kick is free and every earlier kick collides; with no choice, every kick collides |
| Tetromino.TryTurn | tetris.py:72-112 | a successful turn has the target angle and the position minus the first free kick (both components subtracted); a turn fails exactly when all five kicks collide; a free unkicked turn keeps the position |
| Tetromino.TryTurnKeepsPlaced | tetris.py:83-90 | a successful turn keeps the piece invariant `Placed` |
| Playfield.Transfer | tetris.py:250-256 | locking writes the piece's kind into every cell under a covered box cell, with the row read the Python way; every other cell is unchanged |
| Playfield.TransferExact | tetris.py:250-256 | with every cell in rows 0..19, locking writes exactly the covered cells and nothing else |
| Playfield.LandingRowRests | tetris.py:258-262 | the landing row is reached by falling through free rows, and one row lower collides |
| Playfield.LandingRowSettles | tetris.py:258-262 | falling again from the landing row stays there |
| Playfield.LandingWithinReach | tetris.py:258-262 | from row -1 down, the landing row is at most 20 rows lower |
| Playfield.Ghost | tetris.py:258-264 | the ghost keeps the column, is not above the piece, is reached through free rows, and one row lower collides |
| Playfield.GhostIsFree | tetris.py:258-264 | a free piece has a free ghost |
| Playfield.LandingUnique | tetris.py:258-264 | only one row is reached through free rows and rests on a collision |
| Playfield.GhostAfterDrop | tetris.py:258-264 | dropping a piece one free row leaves its ghost where it was |
| Playfield.FullIffNoEmptyCell | tetris.py:269 | a row counts as full exactly when none of its cells is empty |
| Playfield.ClearBottomShape | tetris.py:269-273 | the inner loop at one row index removes the run of full rows ending there and puts as many empty rows on top; the row above the run is not full |
| Playfield.SweepCompacts | tetris.py:267-276 | the sweep from row 19 up to row 1 removes every full row, keeps the others in order under fresh empty rows, and its combos add up to the number of full rows; with no full row in 1..19 it changes nothing |
| Playfield.ClearLines | tetris.py:266-276 | a line clearing that does not fail leaves a well-formed 10×20 grid |
| Playfield.ClearLinesResult | tetris.py:266-276 | after clearing, no row in 1..19 is full; points lie between the number of cleared rows and twice it; with nothing full in 1..19 the grid and score are unchanged |
| Playfield.PointsBounds | tetris.py:275-276 | each cleared row is worth between 1 and 2 points of the table [0, 1, 3, 5, 8] |
| Playfield.FewFullRowsClear | tetris.py:275-276 | with at most four full rows the score table is never indexed past its end |
| Playfield.BottomRunScore | tetris.py:266-276 | k ≤ 4 full rows at the bottom, and no other full row, are removed in one go and score the table entry for k once (two rows score 3) |
| Game.NewSession | tetris.py:191-221 | a new session has an empty field, the first kind as the current piece and the second as the next, both new at (4, 0) with angle 0 and timers started now; a fresh ghost, nothing held, holding allowed, score 0 and level 1 |
| Game.Moved | tetris.py:303-305 | after a successful move the current piece is the moved piece after the grounded test (same kind, pose and position), the ghost is recomputed for it, and nothing else changes |
| Game.Rotate | tetris.py:302-309 | a failed turn leaves the session unchanged; a successful one gives the current piece the angle and kicked position of the turn, keeps its kind, recomputes the ghost, and runs the grounded test on the turned piece (the current piece is `CheckGrounded` of it); the invariant holds and nothing else changes |
| Game.Shift | tetris.py:310-323 | when the pose one column over is free the piece moves there with kind and angle kept and a fresh ghost, and the current piece is `CheckGrounded` of the moved piece; when it collides the session is unchanged; the invariant holds and nothing else changes |
| Game.SoftDrop | tetris.py:324-330 | a soft drop moves the piece one row down when that row is free, runs the grounded test on the dropped piece and recomputes the ghost; otherwise it changes nothing; kind and angle are kept |
| Game.Fall | tetris.py:333-342 | the hard-drop loop keeps `Placed`, the kind, angle and column, and never moves the piece up; after at least one drop the drop clock is now, and a piece that ends resting has its lock timer started now |
| Game.HardDrop | tetris.py:332-342 | the space key: a piece that cannot fall leaves the session unchanged; otherwise kind and angle are kept, the drop clock is now and a piece that ends resting has its lock timer started now; only the current piece and the ghost change and the invariant holds |
| Game.FallReachesLanding | tetris.py:333-342 | with enough single-row drops the loop ends exactly on the landing row |
| Game.HardDropReachesGhost | tetris.py:332-342 | space takes a piece at row -1 or below to its ghost position, and the stored ghost is then that position |
| Game.AddNextPiece | tetris.py:283-285 | the next piece becomes current and the next slot holds a new piece of the drawn kind at (4, -1), angle 0, lock timer off, drop clock started now; nothing else changes |
| Game.Hold | tetris.py:287-295 | a hold forbids holding again and stores a new piece of the current kind at (4, -1); the first hold brings in the next piece, later holds swap in the held one; the ghost is not recomputed |
| Game.HoldTwiceRestoresKind | tetris.py:287-295 | two holds bring back the kind that was current |
| Game.Press | tetris.py:300-345 | each key does its own command: the turn keys turn, `a`/`d` shift left/right, `s`/down soft-drop, space hard-drops, tab holds when allowed and otherwise does nothing; every key keeps the invariant and leaves grid, score, level and the game state alone |
| Game.PressAll | tetris.py:300-345 | a frame's keys keep the invariant and leave grid, score, level and the game state alone; with no keys nothing changes |
| Game.PressAllOne | tetris.py:300-345 | a frame with one key does exactly what `Game.Press` does for that key |
| Game.PressAllAppend | tetris.py:300-301 | the keys are applied in order: the keys `a + b` act as the keys `a` followed by the keys `b` |
| Game.LevelUp | tetris.py:278-281 | the level rises by one, and the level's points restart, exactly when those points exceed ten times the level and the level is below 20 |
| Game.Lock | tetris.py:346-358 | a lock crashes exactly when line clearing of the grid with the piece written in fails; otherwise it keeps the session invariant; it never stops the game outright |
| Game.LockResult | tetris.py:346-358 | a lock whose clearing gives `c` leaves `c`'s grid, adds `c`'s points, levels up as `LevelUp` says, allows holding, brings in the next piece's kind with a fresh ghost, draws a new next piece, and goes on exactly when that piece can fall one row in the new grid |
| Game.ScoredThenSpawned | tetris.py:347-358 | scoring a clear and then spawning the next piece gives the session `Game.LockResult` describes |
| Game.Scored | tetris.py:346-350 | a lock adds the cleared rows' points to the score, applies the level-up and allows holding again |
| Game.Spawn | tetris.py:349-358 | the arrival of the next piece keeps the session invariant |
| Game.SpawnResult | tetris.py:349-358 | the game goes on exactly when the new piece can fall one row, and then it is `CheckGrounded` of the piece dropped one row; otherwise it is the next piece unchanged; the stored ghost is the new piece's, and a new piece of the drawn kind is next |
| Game.LockLevels | tetris.py:346-358 | a lock raises the level by at most one and never past 20, and never lowers the score |
| Game.FewRowsNoCrash | tetris.py:346-348 | with at most four full rows after locking, the lock does not crash |
| Game.AutoDropAsWritten | tetris.py:359-362 | gravity as written: once the interval has passed the piece moves one row down, free or not |
| Game.AutoDropAsWrittenSinks | tetris.py:346-362 | with an interval below the lock delay, a resting piece is moved by gravity into a colliding pose before its lock is due |
| Game.AutoDropAsWrittenLeavesField | tetris.py:359-362 | an O piece on the floor of an empty field, with a 472 ms interval, is moved below the floor |
| Game.AutoDrop | tetris.py:359-362 | corrected gravity keeps the session invariant and changes only the current piece and the ghost |
| Game.AutoDropKeepsFree | tetris.py:359-362 | before the interval has passed gravity changes nothing; afterwards a piece that can fall moves one row down, the grounded test runs on the dropped piece (as in the game) and the ghost is fresh; a piece that cannot fall never moves; a resting piece whose lock timer is running is left exactly as it is, so it stays until its lock is due; a resting piece without a running timer gets the grounded test, which starts it; a free piece stays free |
| Game.Update | tetris.py:297-365 | a frame does nothing exactly when the game is over; a frame keeps the session invariant; a frame with no lock due leaves grid, score and level alone and the game goes on |
| Game.UpdateResult | tetris.py:297-362 | after the keys, a frame crashes exactly when a lock is due and line clearing fails; a due lock with a clear leaves the cleared grid, adds its points, allows holding, brings in the next piece and goes on exactly when it can fall; with no lock due the frame is the corrected gravity applied to the session after the keys |
| Game.UpdateFalls | tetris.py:359-362 | with no lock due and the drop interval not passed nothing happens after the keys; once it has passed, a piece that can fall moves one row down, gets the grounded test and a fresh ghost; a piece that cannot fall keeps its position, and with its lock timer running the session after the keys is left exactly as it is; grid, score, held and next pieces are unchanged |
| Game.UpdateIsGravity | tetris.py:346-362 | a running frame without a due lock is the corrected gravity applied to the session after the keys |
| Game.UpdateLevels | tetris.py:297-365 | over one frame the score never drops and the level rises by at most one, never past 20 |

## Left out

- Rendering: surfaces, sprites, `repaint` and the drawing call in `update` (tetris.py:197-248, 364, 367-415). They do not affect game state.
- The main loop: window, fonts, event polling and frame clock (tetris.py:417-468). They are input and output plumbing.
- Randomness: `random.randrange` becomes the `Kind` parameters `first`, `second`, `draw`, `holdDraw` and `lockDraw`.
- The wall clock: `time.time()` becomes the integer `now`. Sub-millisecond differences and clock readings that differ within one frame are not modelled.
- The drop-interval formula (tetris.py:281) uses floating-point powers. The interval is the parameter `interval`, and only its comparison at tetris.py:359 is modelled. `Game.LevelUp` models the level and its points but not the new interval.
- Key codes and event types: the model takes a sequence of `Key` values; other events have no effect in the game and are not represented.
- Game.AutoDrop: this is the corrected gravity. When the row below is not free, it leaves the piece where it is and starts the lock timer if it is not running, as `check_grounded` would. The game code (modelled by `Game.AutoDropAsWritten`) moves the piece anyway; see Findings.
- Game.Update: the frame runs the corrected gravity `Game.AutoDrop`, not the game's as-written gravity. With the as-written gravity a frame does not keep `Game.Valid`. At level 4, an O piece resting on the floor is moved to (4, 19), below the floor, before its lock is due. That grounded test restarts both timers. The next gravity step, 473 ms later and still before the lock is due, moves the piece to (4, 20). There the grounded test reads row 21 and raises `IndexError` (see Findings).
- Game.Update: frames at `now <= 0` are not excluded. There a grounded piece stores a lock start the lock test reads as "not running", so it never locks. The game's clock is always positive, so it never reaches that state.
- Game.Hold: as in the code, the stored ghost is not recomputed after a hold, so it can be stale until the next move. `Game.GhostFresh` is therefore not part of the session invariant `Game.Valid`.
- Game.HardDropReachesGhost: the promise is stated only for a piece at row -1 or below. A piece lifted higher by a wall kick may need more than 20 drops to land, and the 20-step loop can then stop short.
- Playfield.ClearLinesResult: row 0 is only examined once a row below it has been removed, as in the code. A full row 0 with nothing else full stays full.
- Playfield.Transfer: a piece locked with cells above the field writes them into the bottom rows, as Python's negative indexing does. `Playfield.TransferExact` states the exact-cells property only for pieces inside rows 0..19.

## Findings

| source | as written | input that shows it | evidently intended | confidence | as-written member | corrected member |
|---|---|---|---|---|---|---|
| tetris.py:359-362 | gravity drops the current piece whenever the drop interval has passed, without checking that the row below is free | level 4 (interval 0.779^3 ≈ 0.473 s, below the 0.5 s lock delay): an O piece resting on the floor at (4, 18) with its lock timer started at t = 1000 ms is dropped at t = 1473 ms, before its lock is due, to (4, 19), below the floor | drop only into a free row, like every other drop; a resting piece stays until its lock is due | not executed | Game.AutoDropAsWritten, Game.AutoDropAsWrittenSinks, Game.AutoDropAsWrittenLeavesField | Game.AutoDrop, Game.AutoDropKeepsFree |

=== FILE: blocks.dfy ===
/** An optional value. `None` stands for a turn with no free kick, and for
    a line clear that the game would abort with an uncaught IndexError. */
module Wrappers {
  datatype Option<+T> = None | Some(value: T)
}

/** Block kinds, the playfield grid type and the shape table of the seven
    tetrominoes: one 16-bit bitmap per (kind, angle), read row-major from the
    most significant bit of its bounding box. */
module Blocks {

  /** The kind of a grid cell; `Empty` marks a free cell. */
  datatype Block = Empty | I | O | T | S | Z | J | L

  /** The kind of a falling piece is never `Empty`. */
  type Kind = b: Block | b != Empty witness I

  /** Rotation state, clockwise-indexed. */
  type Angle = a: int | 0 <= a < 4

  /** A grid coordinate: column `x` grows to the right, row `y` grows downwards. */
  datatype Pos = Pos(x: int, y: int)

  const Width := 10
  const Height := 20

  type Row = seq<Block>
  type Grid = seq<Row>

  /** The playfield holds `Height` rows of `Width` cells each. */
  predicate WellFormed(g: Grid)
  {
    |g| == Height && forall r :: 0 <= r < |g| ==> |g[r]| == Width
  }

  /** `n` empty cells. */
  function Blanks(n: nat): (r: Row)
    ensures |r| == n && forall c | 0 <= c < n :: r[c] == Empty
  {
    if n == 0 then [] else Blanks(n - 1) + [Empty]
  }

  /** The game code's fresh row: one empty cell per column. */
  const EmptyRow: Row := Blanks(Width)

  /** `n` fresh rows. */
  function Empties(n: nat): (r: seq<Row>)
    ensures |r| == n
  {
    if n == 0 then [] else Empties(n - 1) + [EmptyRow]
  }

  lemma {:induction false} EmptiesAreEmpty(n: nat)
    ensures forall i | 0 <= i < n :: Empties(n)[i] == EmptyRow
    decreases n
  {
    if n > 0 {
      EmptiesAreEmpty(n - 1);
    }
  }

  /** The field at the start of a game. */
  function EmptyGrid(): (g: Grid)
    ensures WellFormed(g) && forall r, c | 0 <= r < Height && 0 <= c < Width :: g[r][c] == Empty
  {
    EmptiesAreEmpty(Height);
    Empties(Height)
  }

  /** Side length of the square bounding box of a kind. */
  function Dim(k: Kind): nat
  {
    if k == I then 4 else if k == O then 2 else 3
  }

  /** The rotation table: bit `(d-y-1)*d + d-x-1` set means box cell (x, y) is occupied. */
  function Bitmap(k: Kind, a: Angle): nat
  {
    match k
    case I => if a == 0 then 0x0F00 else if a == 1 then 0x2222 else if a == 2 then 0x00F0 else 0x4444
    case O => if a == 0 then 0x000F else if a == 1 then 0x000F else if a == 2 then 0x000F else 0x000F
    case T => if a == 0 then 0x00B8 else if a == 1 then 0x009A else if a == 2 then 0x003A else 0x00B2
    case S => if a == 0 then 0x00F0 else if a == 1 then 0x0099 else if a == 2 then 0x001E else 0x0132
    case Z => if a == 0 then 0x0198 else if a == 1 then 0x005A else if a == 2 then 0x0033 else 0x00B4
    case J => if a == 0 then 0x0138 else if a == 1 then 0x00D2 else if a == 2 then 0x0039 else 0x0096
    case L => if a == 0 then 0x0078 else if a == 1 then 0x0093 else if a == 2 then 0x003C else 0x0192
  }

  /** Bit `i` of `n`, the game code's `(n >> i) & 1`: shift right `i` times,
      then look at the lowest bit. */
  predicate Bit(n: nat, i: nat)
    decreases i
  {
    if i == 0 then n % 2 == 1 else Bit(n / 2, i - 1)
  }

  /** The same bit of a 16-bit word, each shift written as one division by `2^i`. */
  predicate BitSet(n: nat, i: nat)
    requires i < 16
  {
    var q :=
      if i == 0 then n else if i == 1 then n / 2 else if i == 2 then n / 4 else if i == 3 then n / 8
      else if i == 4 then n / 16 else if i == 5 then n / 32 else if i == 6 then n / 64
      else if i == 7 then n / 128 else if i == 8 then n / 256 else if i == 9 then n / 512
      else if i == 10 then n / 1024 else if i == 11 then n / 2048 else if i == 12 then n / 4096
      else if i == 13 then n / 8192 else if i == 14 then n / 16384 else n / 32768;
    q % 2 == 1
  }

  /** Bit `i` of `n` is bit `i - 1` of `n / 2`. */
  lemma HalveBit(n: nat, i: nat)
    requires 0 < i < 16
    ensures BitSet(n, i) == BitSet(n / 2, i - 1)
  {
    if i == 1 {
      assert n / 2 / 1 == n / 2;
    } else if i == 2 {
      assert n / 2 / 2 == n / 4;
    } else if i == 3 {
      assert n / 2 / 4 == n / 8;
    } else if i == 4 {
      assert n / 2 / 8 == n / 16;
    } else if i == 5 {
      assert n / 2 / 16 == n / 32;
    } else if i == 6 {
      assert n / 2 / 32 == n / 64;
    } else if i == 7 {
      assert n / 2 / 64 == n / 128;
    } else if i == 8 {
      assert n / 2 / 128 == n / 256;
    } else if i == 9 {
      assert n / 2 / 256 == n / 512;
    } else if i == 10 {
      assert n / 2 / 512 == n / 1024;
    } else if i == 11 {
      assert n / 2 / 1024 == n / 2048;
    } else if i == 12 {
      assert n / 2 / 2048 == n / 4096;
    } else if i == 13 {
      assert n / 2 / 4096 == n / 8192;
    } else if i == 14 {
      assert n / 2 / 8192 == n / 16384;
    } else if i == 15 {
      assert n / 2 / 16384 == n / 32768;
    }
  }

  /** Shifting one place at a time and dividing once agree. */
  lemma {:induction false} BitByDivision(n: nat, i: nat)
    requires i < 16
    ensures Bit(n, i) == BitSet(n, i)
    decreases i
  {
    if i > 0 {
      BitByDivision(n / 2, i - 1);
      HalveBit(n, i);
    }
  }

  /** Box cell (cx, cy) of kind `k` at angle `a` is part of the piece: the
      game code tests bit `(d-cy-1)*d + d-cx-1` of the bitmap. */
  predicate Occupied(k: Kind, a: Angle, cx: int, cy: int)
  {
    0 <= cx < Dim(k) && 0 <= cy < Dim(k) && Bit(Bitmap(k, a), BoxBit(k, cx, cy))
  }

  /** The same table drawn as cells: box cell (cx, cy) belongs to kind `k` at
      angle `a`. `CoversIsBitmap` proves this agrees with the bitmaps. */
  predicate Covers(k: Kind, a: Angle, cx: int, cy: int)
  {
    match k
    case I =>
      if a == 0 then cy == 1 && 0 <= cx <= 3
      else if a == 1 then cx == 2 && 0 <= cy <= 3
      else if a == 2 then cy == 2 && 0 <= cx <= 3
      else cx == 1 && 0 <= cy <= 3
    case O => 0 <= cx <= 1 && 0 <= cy <= 1
    case T =>
      if a == 0 then (cy == 0 && cx == 1) || (cy == 1 && 0 <= cx <= 2)
      else if a == 1 then (cx == 1 && 0 <= cy <= 2) || (cy == 1 && cx == 2)
      else if a == 2 then (cy == 1 && 0 <= cx <= 2) || (cy == 2 && cx == 1)
      else (cx == 1 && 0 <= cy <= 2) || (cy == 1 && cx == 0)
    case S =>
      if a == 0 then (cy == 0 && 1 <= cx <= 2) || (cy == 1 && 0 <= cx <= 1)
      else if a == 1 then (cy == 0 && cx == 1) || (cy == 1 && 1 <= cx <= 2) || (cy == 2 && cx == 2)
      else if a == 2 then (cy == 1 && 1 <= cx <= 2) || (cy == 2 && 0 <= cx <= 1)
      else (cy == 0 && cx == 0) || (cy == 1 && 0 <= cx <= 1) || (cy == 2 && cx == 1)
    case Z =>
      if a == 0 then (cy == 0 && 0 <= cx <= 1) || (cy == 1 && 1 <= cx <= 2)
      else if a == 1 then (cy == 0 && cx == 2) || (cy == 1 && 1 <= cx <= 2) || (cy == 2 && cx == 1)
      else if a == 2 then (cy == 1 && 0 <= cx <= 1) || (cy == 2 && 1 <= cx <= 2)
      else (cy == 0 && cx == 1) || (cy == 1 && 0 <= cx <= 1) || (cy == 2 && cx == 0)
    case J =>
      if a == 0 then (cy == 0 && cx == 0) || (cy == 1 && 0 <= cx <= 2)
      else if a == 1 then (cy == 0 && cx == 2) || (cx == 1 && 0 <= cy <= 2)
      else if a == 2 then (cy == 1 && 0 <= cx <= 2) || (cy == 2 && cx == 2)
      else (cx == 1 && 0 <= cy <= 2) || (cy == 2 && cx == 0)
    case L =>
      if a == 0 then (cy == 0 && cx == 2) || (cy == 1 && 0 <= cx <= 2)
      else if a == 1 then (cx == 1 && 0 <= cy <= 2) || (cy == 2 && cx == 2)
      else if a == 2 then (cy == 1 && 0 <= cx <= 2) || (cy == 2 && cx == 0)
      else (cy == 0 && cx == 0) || (cx == 1 && 0 <= cy <= 2)
  }

  /** The cell drawing and the bitmap table describe the same shapes. */
  lemma CoversIsBitmap(k: Kind, a: Angle, cx: int, cy: int)
    ensures Covers(k, a, cx, cy) <==> Occupied(k, a, cx, cy)
  {
    if 0 <= cx < Dim(k) && 0 <= cy < Dim(k) {
      var i := BoxBit(k, cx, cy);
      BitByDivision(Bitmap(k, a), i);
      match k
      case I => CoversI(a, cx, cy);
      case O => CoversO(a, cx, cy);
      case T => CoversT(a, cx, cy);
      case S => CoversS(a, cx, cy);
      case Z => CoversZ(a, cx, cy);
      case J => CoversJ(a, cx, cy);
      case L => CoversL(a, cx, cy);
    }
  }

  lemma CoversI(a: Angle, cx: int, cy: int)
    requires 0 <= cx < 4 && 0 <= cy < 4
    ensures Covers(I, a, cx, cy) <==> BitSet(Bitmap(I, a), BoxBit(I, cx, cy))
  {
  }

  lemma CoversO(a: Angle, cx: int, cy: int)
    requires 0 <= cx < 2 && 0 <= cy < 2
    ensures Covers(O, a, cx, cy) <==> BitSet(Bitmap(O, a), BoxBit(O, cx, cy))
  {
  }

  lemma CoversT(a: Angle, cx: int, cy: int)
    requires 0 <= cx < 3 && 0 <= cy < 3
    ensures Covers(T, a, cx, cy) <==> BitSet(Bitmap(T, a), BoxBit(T, cx, cy))
  {
  }

  lemma CoversS(a: Angle, cx: int, cy: int)
    requires 0 <= cx < 3 && 0 <= cy < 3
    ensures Covers(S, a, cx, cy) <==> BitSet(Bitmap(S, a), BoxBit(S, cx, cy))
  {
  }

  lemma CoversZ(a: Angle, cx: int, cy: int)
    requires 0 <= cx < 3 && 0 <= cy < 3
    ensures Covers(Z, a, cx, cy) <==> BitSet(Bitmap(Z, a), BoxBit(Z, cx, cy))
  {
  }

  lemma CoversJ(a: Angle, cx: int, cy: int)
    requires 0 <= cx < 3 && 0 <= cy < 3
    ensures Covers(J, a, cx, cy) <==> BitSet(Bitmap(J, a), BoxBit(J, cx, cy))
  {
  }

  lemma CoversL(a: Angle, cx: int, cy: int)
    requires 0 <= cx < 3 && 0 <= cy < 3
    ensures Covers(L, a, cx, cy) <==> BitSet(Bitmap(L, a), BoxBit(L, cx, cy))
  {
  }

  /** The bit of box cell (cx, cy): `(d-cy-1)*d + d-cx-1` with `d` the box side,
      written out for each of the three box sizes. */
  function BoxBit(k: Kind, cx: int, cy: int): (i: nat)
    requires 0 <= cx < Dim(k) && 0 <= cy < Dim(k)
    ensures i < 16
  {
    if k == I then (3 - cy) * 4 + 3 - cx
    else if k == O then (1 - cy) * 2 + 1 - cx
    else (2 - cy) * 3 + 2 - cx
  }

  /** Number of set bits of a 4-bit value. */
  function NibbleBits(m: nat): nat
  {
    if m == 0 then 0
    else if m == 1 || m == 2 || m == 4 || m == 8 then 1
    else if m == 7 || m == 11 || m == 13 || m == 14 then 3
    else if m == 15 then 4
    else 2
  }

  /** Number of set bits of a 16-bit word, one nibble at a time. */
  function Popcount(n: nat): nat
  {
    NibbleBits(n % 16) + NibbleBits(n / 16 % 16) + NibbleBits(n / 256 % 16) + NibbleBits(n / 4096 % 16)
  }

  /** 2 to the power of the number of cells of the bounding box. */
  function BoxLimit(k: Kind): nat
  {
    if k == I then 65536 else if k == O then 16 else 512
  }

  /** Every bitmap of the table has exactly four set bits, all of them inside
      the bounding box, and the four bitmaps of O are identical. */
  lemma ShapeTable(k: Kind, a: Angle)
    ensures Popcount(Bitmap(k, a)) == 4
    ensures Bitmap(k, a) < BoxLimit(k)
    ensures k == O ==> Bitmap(k, a) == Bitmap(O, 0)
  {
    match k
    case I => ShapeI(a);
    case O => ShapeO(a);
    case T => ShapeT(a);
    case S => ShapeS(a);
    case Z => ShapeZ(a);
    case J => ShapeJ(a);
    case L => ShapeL(a);
  }

  lemma ShapeI(a: Angle)
    ensures Popcount(Bitmap(I, a)) == 4 && Bitmap(I, a) < BoxLimit(I)
  {
    if a == 0 {
      assert Bitmap(I, a) == 0x0F00 && Popcount(0x0F00) == 4;
    } else if a == 1 {
      assert Bitmap(I, a) == 0x2222 && Popcount(0x2222) == 4;
    } else if a == 2 {
      assert Bitmap(I, a) == 0x00F0 && Popcount(0x00F0) == 4;
    } else {
      assert Bitmap(I, a) == 0x4444 && Popcount(0x4444) == 4;
    }
  }

  lemma ShapeO(a: Angle)
    ensures Popcount(Bitmap(O, a)) == 4 && Bitmap(O, a) < BoxLimit(O)
    ensures Bitmap(O, a) == Bitmap(O, 0)
  {
    assert Bitmap(O, a) == 0x000F && Popcount(0x000F) == 4;
  }

  lemma ShapeT(a: Angle)
    ensures Popcount(Bitmap(T, a)) == 4 && Bitmap(T, a) < BoxLimit(T)
  {
    if a == 0 {
      assert Bitmap(T, a) == 0x00B8 && Popcount(0x00B8) == 4;
    } else if a == 1 {
      assert Bitmap(T, a) == 0x009A && Popcount(0x009A) == 4;
    } else if a == 2 {
      assert Bitmap(T, a) == 0x003A && Popcount(0x003A) == 4;
    } else {
      assert Bitmap(T, a) == 0x00B2 && Popcount(0x00B2) == 4;
    }
  }

  lemma ShapeS(a: Angle)
    ensures Popcount(Bitmap(S, a)) == 4 && Bitmap(S, a) < BoxLimit(S)
  {
    if a == 0 {
      assert Bitmap(S, a) == 0x00F0 && Popcount(0x00F0) == 4;
    } else if a == 1 {
      assert Bitmap(S, a) == 0x0099 && Popcount(0x0099) == 4;
    } else if a == 2 {
      assert Bitmap(S, a) == 0x001E && Popcount(0x001E) == 4;
    } else {
      assert Bitmap(S, a) == 0x0132 && Popcount(0x0132) == 4;
    }
  }

  lemma ShapeZ(a: Angle)
    ensures Popcount(Bitmap(Z, a)) == 4 && Bitmap(Z, a) < BoxLimit(Z)
  {
    if a == 0 {
      assert Bitmap(Z, a) == 0x0198 && Popcount(0x0198) == 4;
    } else if a == 1 {
      assert Bitmap(Z, a) == 0x005A && Popcount(0x005A) == 4;
    } else if a == 2 {
      assert Bitmap(Z, a) == 0x0033 && Popcount(0x0033) == 4;
    } else {
      assert Bitmap(Z, a) == 0x00B4 && Popcount(0x00B4) == 4;
    }
  }

  lemma ShapeJ(a: Angle)
    ensures Popcount(Bitmap(J, a)) == 4 && Bitmap(J, a) < BoxLimit(J)
  {
    if a == 0 {
      assert Bitmap(J, a) == 0x0138 && Popcount(0x0138) == 4;
    } else if a == 1 {
      assert Bitmap(J, a) == 0x00D2 && Popcount(0x00D2) == 4;
    } else if a == 2 {
      assert Bitmap(J, a) == 0x0039 && Popcount(0x0039) == 4;
    } else {
      assert Bitmap(J, a) == 0x0096 && Popcount(0x0096) == 4;
    }
  }

  lemma ShapeL(a: Angle)
    ensures Popcount(Bitmap(L, a)) == 4 && Bitmap(L, a) < BoxLimit(L)
  {
    if a == 0 {
      assert Bitmap(L, a) == 0x0078 && Popcount(0x0078) == 4;
    } else if a == 1 {
      assert Bitmap(L, a) == 0x0093 && Popcount(0x0093) == 4;
    } else if a == 2 {
      assert Bitmap(L, a) == 0x003C && Popcount(0x003C) == 4;
    } else {
      assert Bitmap(L, a) == 0x0192 && Popcount(0x0192) == 4;
    }
  }

  /** Every shape covers some cell of its box: the three-wide shapes all
      contain their centre, O its top-left cell, and I one of two middle cells. */
  function SomeCell(k: Kind, a: Angle): (c: Pos)
    ensures Covers(k, a, c.x, c.y)
  {
    if k == O then Pos(0, 0)
    else if k == I then (if a < 2 then Pos(2, 1) else Pos(1, 2))
    else Pos(1, 1)
  }

  /** Covered cells lie inside the bounding box. */
  lemma CoversInBox(k: Kind, a: Angle, cx: int, cy: int)
    requires Covers(k, a, cx, cy)
    ensures 0 <= cx < Dim(k) && 0 <= cy < Dim(k)
  {
  }
}

=== FILE: game.dfy ===
/** One game session: the falling piece, the next and held pieces, score
    and level, and the per-frame update that applies the player's keys,
    then either locks the piece or lets gravity pull it down. */
module Game {
  import opened Wrappers
  import opened Blocks
  import opened Tetromino
  import opened Playfield

  /** How long a grounded piece may rest before it locks, in milliseconds. */
  const LockDelay := 500

  /** The level stops rising here. */
  const MaxLevel := 20

  /** Column of a new piece's box. */
  const SpawnX := Width / 2 - 1

  datatype Session = Session(
    grid: Grid,
    current: Piece,
    next: Piece,
    held: Option<Piece>,
    canHold: bool,
    ghostPos: Pos,
    score: nat,
    levelScore: nat,
    level: nat,
    going: bool)

  /** The keys the game reacts to. Left arrow and Q turn clockwise, right
      arrow and E counterclockwise; A and D shift, S and down arrow drop one
      row, space drops hard, tab holds. */
  datatype Key = Turn(clockwise: bool) | Left | Right | Down | Space | Tab

  /** What one frame's update does: nothing once the game is over, a crash
      when the score table is indexed past its end, or a new session. */
  datatype Outcome = Stopped | Crashed | Ran(session: Session)

  /** The invariant every session keeps: a field of the right size, every
      piece inside the columns and above the floor, a level in range. */
  predicate Valid(s: Session)
  {
    WellFormed(s.grid) && Placed(s.current) && Placed(s.next) &&
    (s.held.Some? ==> Placed(s.held.value)) && 1 <= s.level <= MaxLevel
  }

  /** The stored ghost is the current piece's. */
  predicate GhostFresh(s: Session)
    requires WellFormed(s.grid)
  {
    s.ghostPos == Ghost(s.current, s.grid)
  }

  /** The session at start-up: an empty field, two new pieces at the top of
      the field, nothing held, level 1. */
  function NewSession(first: Kind, second: Kind, now: int): (s: Session)
    ensures Valid(s) && GhostFresh(s) && s.going && s.canHold && s.held.None?
    ensures s.score == 0 && s.levelScore == 0 && s.level == 1
    ensures s.current == NewPiece(first, Pos(SpawnX, 0), now) && s.next == NewPiece(second, Pos(SpawnX, 0), now)
    ensures forall r, c | 0 <= r < Height && 0 <= c < Width :: s.grid[r][c] == Empty
  {
    var g := EmptyGrid();
    var p := NewPiece(first, Pos(SpawnX, 0), now);
    SpawnIsPlaced(first, 0, now);
    SpawnIsPlaced(second, 0, now);
    Session(g, p, NewPiece(second, Pos(SpawnX, 0), now), None, true, Ghost(p, g), 0, 0, 1, true)
  }

  // ------------------------------------------------------------ commands

  /** The bookkeeping after every successful move: the ghost is recomputed
      and the grounded test restarts or stops the lock timer. */
  function Moved(s: Session, p: Piece, now: int): (r: Session)
    requires WellFormed(s.grid) && Placed(p)
    ensures r == s.(current := r.current, ghostPos := r.ghostPos)
    ensures r.current == CheckGrounded(p, s.grid, now)
    ensures r.current.kind == p.kind && r.current.pos == p.pos && r.current.angle == p.angle
    ensures Placed(r.current) && GhostFresh(r)
  {
    s.(current := CheckGrounded(p, s.grid, now), ghostPos := Ghost(p, s.grid))
  }

  /** The pose one row lower is free. */
  predicate CanFall(p: Piece, g: Grid)
    requires WellFormed(g)
  {
    !Collides(p.kind, p.angle, Pos(p.pos.x, p.pos.y + 1), g)
  }

  /** Soft drop: one row down if that row is free. */
  function SoftDrop(s: Session, now: int): (r: Session)
    requires Valid(s)
    ensures Valid(r) && r == s.(current := r.current, ghostPos := r.ghostPos)
    ensures CanFall(s.current, s.grid) ==> r.current.pos == Pos(s.current.pos.x, s.current.pos.y + 1) && GhostFresh(r)
    ensures CanFall(s.current, s.grid) ==> r.current == CheckGrounded(Drop(s.current, now), s.grid, now)
    ensures r.current.kind == s.current.kind && r.current.angle == s.current.angle
    ensures !CanFall(s.current, s.grid) ==> r == s
  {
    var p := s.current;
    if CanFall(p, s.grid) then
      FreeIsPlaced(Drop(p, now), s.grid);
      Moved(s, Drop(p, now), now)
    else s
  }

  /** Shift one column left or right if the shifted pose is free. */
  function Shift(s: Session, left: bool, now: int): (r: Session)
    requires Valid(s)
    ensures Valid(r) && r == s.(current := r.current, ghostPos := r.ghostPos)
    ensures var target := Pos(s.current.pos.x + (if left then -1 else 1), s.current.pos.y);
            (!Collides(s.current.kind, s.current.angle, target, s.grid) ==>
               r.current.pos == target && r.current.kind == s.current.kind &&
               r.current.angle == s.current.angle && GhostFresh(r)) &&
            (Collides(s.current.kind, s.current.angle, target, s.grid) ==> r == s)
    ensures var q := if left then MoveLeft(s.current) else MoveRight(s.current);
            !Collides(q.kind, q.angle, q.pos, s.grid) ==> r.current == CheckGrounded(q, s.grid, now)
  {
    var p := s.current;
    var q := if left then MoveLeft(p) else MoveRight(p);
    assert q == p.(pos := Pos(p.pos.x + (if left then -1 else 1), p.pos.y));
    if !Collides(q.kind, q.angle, q.pos, s.grid) then
      FreeIsPlaced(q, s.grid);
      Moved(s, q, now)
    else s
  }

  /** Turn with wall kicks; a failed turn changes nothing. */
  function Rotate(s: Session, clockwise: bool, now: int): (r: Session)
    requires Valid(s)
    ensures Valid(r) && r == s.(current := r.current, ghostPos := r.ghostPos)
    ensures TryTurn(s.current, s.grid, clockwise).None? ==> r == s
    ensures TryTurn(s.current, s.grid, clockwise).Some? ==>
              var p := TryTurn(s.current, s.grid, clockwise).value;
              r.current.pos == p.pos && r.current.angle == p.angle &&
              r.current.kind == s.current.kind && GhostFresh(r)
    ensures TryTurn(s.current, s.grid, clockwise).Some? ==>
              r.current == CheckGrounded(TryTurn(s.current, s.grid, clockwise).value, s.grid, now)
  {
    match TryTurn(s.current, s.grid, clockwise)
    case None => s
    case Some(p) =>
      TryTurnKeepsPlaced(s.current, s.grid, clockwise);
      Moved(s, p, now)
  }

  /** The hard-drop loop on the piece: up to `fuel` single-row drops, each
      followed by the grounded test, stopping at the first row that is not
      free. */
  function Fall(p: Piece, g: Grid, now: int, fuel: nat): (r: Piece)
    requires WellFormed(g) && Placed(p)
    ensures Placed(r) && r.kind == p.kind && r.angle == p.angle
    ensures r.pos.x == p.pos.x && r.pos.y >= p.pos.y
    ensures fuel > 0 && CanFall(p, g) ==> r.lastDrop == now && (!CanFall(r, g) ==> r.lockStart == now)
    decreases fuel
  {
    if fuel == 0 || !CanFall(p, g) then p
    else
      FreeIsPlaced(Drop(p, now), g);
      Fall(CheckGrounded(Drop(p, now), g, now), g, now, fuel - 1)
  }

  /** Hard drop: as many single-row drops as the field is high, stopping
      at the first row that is not free. Each drop recomputes the ghost, so
      after at least one drop the ghost is the piece's; with none, nothing
      changes. */
  function HardDrop(s: Session, now: int): (r: Session)
    requires Valid(s)
    ensures Valid(r) && r == s.(current := r.current, ghostPos := r.ghostPos)
    ensures r.current.kind == s.current.kind && r.current.angle == s.current.angle
    ensures CanFall(s.current, s.grid) ==>
              r.current.lastDrop == now && (!CanFall(r.current, s.grid) ==> r.current.lockStart == now)
    ensures !CanFall(s.current, s.grid) ==> r == s
  {
    if CanFall(s.current, s.grid) then
      var p := Fall(s.current, s.grid, now, Height);
      s.(current := p, ghostPos := Ghost(p, s.grid))
    else s
  }

  /** With enough fuel for the whole fall, the hard-drop loop ends on the
      landing row. */
  lemma {:induction false} FallReachesLanding(p: Piece, g: Grid, now: int, fuel: nat)
    requires WellFormed(g) && Placed(p)
    requires LandingRow(p.kind, p.angle, p.pos.x, p.pos.y, g) - p.pos.y <= fuel
    ensures Fall(p, g, now, fuel).pos == Pos(p.pos.x, LandingRow(p.kind, p.angle, p.pos.x, p.pos.y, g))
    decreases fuel
  {
    if CanFall(p, g) {
      LandingStep(p.kind, p.angle, p.pos.x, p.pos.y, g);
      var q := CheckGrounded(Drop(p, now), g, now);
      FreeIsPlaced(Drop(p, now), g);
      FallReachesLanding(q, g, now, fuel - 1);
    }
  }

  /** The space key takes a piece that is not above the spawn row to its
      ghost, which is then the stored ghost. */
  lemma HardDropReachesGhost(s: Session, now: int)
    requires Valid(s) && s.current.pos.y >= -1
    ensures HardDrop(s, now).current.pos == Ghost(s.current, s.grid)
    ensures CanFall(s.current, s.grid) ==> HardDrop(s, now).ghostPos == Ghost(s.current, s.grid)
  {
    var p := s.current;
    LandingWithinReach(p.kind, p.angle, p.pos.x, p.pos.y, s.grid);
    FallReachesLanding(p, s.grid, now, Height);
    if CanFall(p, s.grid) {
      LandingRowSettles(p.kind, p.angle, p.pos.x, p.pos.y, s.grid);
    }
  }

  /** Promote the next piece and make a new one of the drawn kind above the
      field. */
  function AddNextPiece(s: Session, draw: Kind, now: int): (r: Session)
    ensures r.current == s.next && r == s.(current := r.current, next := r.next)
    ensures r.next.kind == draw && r.next.pos == Pos(SpawnX, -1) && r.next.angle == 0 && r.next.lockStart == 0
    ensures r.next == NewPiece(draw, Pos(SpawnX, -1), now)
    ensures Valid(s) ==> Valid(r)
  {
    SpawnIsPlaced(draw, -1, now);
    s.(current := s.next, next := NewPiece(draw, Pos(SpawnX, -1), now))
  }

  /** Hold: a new piece of the current kind goes into the hold slot above
      the field; the piece that was held (or, the first time, the next
      piece) becomes current. The ghost is not recomputed. */
  function Hold(s: Session, draw: Kind, now: int): (r: Session)
    requires Valid(s)
    ensures Valid(r) && !r.canHold && r.ghostPos == s.ghostPos
    ensures r.held == Some(NewPiece(s.current.kind, Pos(SpawnX, -1), now))
    ensures s.held.Some? ==> r.current == s.held.value && r.next == s.next
    ensures s.held.None? ==> r.current == s.next && r.next == NewPiece(draw, Pos(SpawnX, -1), now)
    ensures r.grid == s.grid && r.score == s.score && r.levelScore == s.levelScore
    ensures r.level == s.level && r.going == s.going
  {
    var stored := NewPiece(s.current.kind, Pos(SpawnX, -1), now);
    SpawnIsPlaced(s.current.kind, -1, now);
    if s.held.Some? then s.(current := s.held.value, held := Some(stored), canHold := false)
    else AddNextPiece(s, draw, now).(held := Some(stored), canHold := false)
  }

  /** Holding twice (holding allowed again in between, as a lock does)
      brings back the kind that was current, and the other kind is held. */
  lemma HoldTwiceRestoresKind(s: Session, d1: Kind, d2: Kind, t1: int, t2: int)
    requires Valid(s)
    ensures var a := Hold(s, d1, t1);
            var b := Hold(a.(canHold := true), d2, t2);
            b.current.kind == s.current.kind &&
            b.held.value.kind == (if s.held.Some? then s.held.value.kind else s.next.kind)
  {
  }

  /** One key press. Tab acts only while holding is allowed; `draw` is the
      kind a first hold brings in. */
  function Press(s: Session, k: Key, now: int, draw: Kind): (r: Session)
    requires Valid(s)
    ensures Valid(r) && r.grid == s.grid && r.score == s.score
    ensures r.levelScore == s.levelScore && r.level == s.level && r.going == s.going
    ensures k != Tab ==> r == s.(current := r.current, ghostPos := r.ghostPos)
    ensures k == Turn(true) ==> r == Rotate(s, true, now)
    ensures k == Turn(false) ==> r == Rotate(s, false, now)
    ensures k == Left ==> r == Shift(s, true, now)
    ensures k == Right ==> r == Shift(s, false, now)
    ensures k == Down ==> r == SoftDrop(s, now)
    ensures k == Space ==> r == HardDrop(s, now)
    ensures k == Tab && s.canHold ==> r == Hold(s, draw, now)
    ensures k == Tab && !s.canHold ==> r == s
  {
    match k
    case Turn(cw) => Rotate(s, cw, now)
    case Left => Shift(s, true, now)
    case Right => Shift(s, false, now)
    case Down => SoftDrop(s, now)
    case Space => HardDrop(s, now)
    case Tab => if s.canHold then Hold(s, draw, now) else s
  }

  /** The keys of one frame, in order. */
  function PressAll(s: Session, keys: seq<Key>, now: int, draw: Kind): (r: Session)
    requires Valid(s)
    ensures Valid(r) && r.grid == s.grid && r.score == s.score
    ensures r.levelScore == s.levelScore && r.level == s.level && r.going == s.going
    ensures |keys| == 0 ==> r == s
    decreases |keys|
  {
    if |keys| == 0 then s
    else PressAll(Press(s, keys[0], now, draw), keys[1..], now, draw)
  }

  /** A frame with one key does exactly what that key does. */
  lemma PressAllOne(s: Session, k: Key, now: int, draw: Kind)
    requires Valid(s)
    ensures PressAll(s, [k], now, draw) == Press(s, k, now, draw)
  {
    assert [k][1..] == [];
  }

  /** The keys of a frame are applied in order: the keys `a + b` act as
      the keys `a` followed by the keys `b`. */
  lemma {:induction false} PressAllAppend(s: Session, a: seq<Key>, b: seq<Key>, now: int, draw: Kind)
    requires Valid(s)
    ensures PressAll(s, a + b, now, draw) == PressAll(PressAll(s, a, now, draw), b, now, draw)
    decreases |a|
  {
    if |a| == 0 {
      assert a + b == b;
    } else {
      assert (a + b)[0] == a[0];
      assert (a + b)[1..] == a[1..] + b;
      PressAllAppend(Press(s, a[0], now, draw), a[1..], b, now, draw);
    }
  }

  // ----------------------------------------------------------- lock step

  /** Level-up after line clearing: past ten times the level in points
      since the last level-up, and below the top level, the level rises by
      one and the level's points start over. */
  function LevelUp(level: nat, levelScore: nat): (r: (nat, nat))
    ensures r == (level + 1, 0) || r == (level, levelScore)
    ensures r.0 == level + 1 <==> levelScore > 10 * level && level < MaxLevel
    ensures level <= MaxLevel ==> r.0 <= MaxLevel
  {
    if levelScore > 10 * level && level < MaxLevel then (level + 1, 0) else (level, levelScore)
  }

  /** Locking: the piece is written into the grid, lines are cleared and
      scored, and the next piece comes in. `None` from line clearing is a
      crash. */
  function Lock(s: Session, now: int, draw: Kind): (r: Outcome)
    requires Valid(s)
    ensures r.Ran? ==> Valid(r.session)
    ensures r.Crashed? <==> ClearLines(Transfer(s.grid, s.current)).None?
    ensures !r.Stopped?
  {
    match ClearLines(Transfer(s.grid, s.current))
    case None => Crashed
    case Some(c) => Ran(Spawn(Scored(s, c), now, draw))
  }

  /** The cleared grid and the points of a lock, with the level-up, and
      holding allowed again. */
  function Scored(s: Session, c: Cleared): (r: Session)
    requires Valid(s) && WellFormed(c.grid)
    ensures Valid(r) && r.grid == c.grid && r.canHold && r.score == s.score + c.points
    ensures r.current == s.current && r.next == s.next && r.held == s.held && r.going == s.going
    ensures (r.level, r.levelScore) == LevelUp(s.level, s.levelScore + c.points)
  {
    var (level, levelScore) := LevelUp(s.level, s.levelScore + c.points);
    s.(grid := c.grid, canHold := true, score := s.score + c.points, levelScore := levelScore, level := level)
  }

  /** The next piece comes in and its ghost is computed; if it can fall one
      row it does, otherwise the game is over. */
  function Spawn(s: Session, now: int, draw: Kind): (r: Session)
    requires Valid(s)
    ensures Valid(r)
  {
    var t := AddNextPiece(s, draw, now);
    var p := t.current;
    var t' := t.(ghostPos := Ghost(p, t.grid));
    if CanFall(p, t.grid) then
      FreeIsPlaced(Drop(p, now), t.grid);
      t'.(current := CheckGrounded(Drop(p, now), t.grid, now))
    else t'.(going := false)
  }

  /** What the arrival of the next piece does: the game goes on exactly
      when the piece can fall one row, and then it has; holding, the grid
      and the score are untouched, a new piece of the drawn kind is next,
      and the stored ghost is the new piece's. */
  lemma SpawnResult(s: Session, now: int, draw: Kind)
    requires Valid(s)
    ensures var r := Spawn(s, now, draw);
            (r.going <==> s.going && CanFall(s.next, s.grid)) &&
            (CanFall(s.next, s.grid) ==> r.current.pos == Pos(s.next.pos.x, s.next.pos.y + 1)) &&
            (!CanFall(s.next, s.grid) ==> r.current == s.next) &&
            (CanFall(s.next, s.grid) ==> r.current == CheckGrounded(Drop(s.next, now), s.grid, now)) &&
            r.current.kind == s.next.kind && r.next == NewPiece(draw, Pos(SpawnX, -1), now) &&
            r == s.(current := r.current, next := r.next, ghostPos := r.ghostPos, going := r.going) &&
            GhostFresh(r)
  {
    if CanFall(s.next, s.grid) {
      GhostAfterDrop(s.next, s.grid, now);
    }
  }

  /** A lock raises the level by at most one and only past ten times the
      level in points, never beyond the top level; the score never drops. */
  lemma LockLevels(s: Session, now: int, draw: Kind)
    requires Valid(s) && Lock(s, now, draw).Ran?
    ensures var t := Lock(s, now, draw).session;
            (t.level == s.level || t.level == s.level + 1) && t.level <= MaxLevel &&
            (t.level == s.level + 1 ==> t.levelScore == 0 && s.level < MaxLevel) &&
            t.score >= s.score
  {
    var c := ClearLines(Transfer(s.grid, s.current)).value;
    SpawnResult(Scored(s, c), now, draw);
  }

  /** What a lock does when line clearing succeeds with `c`: the grid is
      the piece written in and cleared, the clear's points are added, holding
      is allowed again, the next piece comes in, and the game goes on exactly
      when that piece can fall one row in the new grid. */
  lemma LockResult(s: Session, now: int, draw: Kind, c: Cleared)
    requires Valid(s) && ClearLines(Transfer(s.grid, s.current)) == Some(c)
    ensures Lock(s, now, draw).Ran?
    ensures var t := Lock(s, now, draw).session;
            t.grid == c.grid && t.score == s.score + c.points && t.canHold &&
            (t.level, t.levelScore) == LevelUp(s.level, s.levelScore + c.points) &&
            t.current.kind == s.next.kind && t.next == NewPiece(draw, Pos(SpawnX, -1), now) &&
            t.held == s.held && GhostFresh(t) &&
            (t.going <==> s.going && CanFall(s.next, c.grid))
  {
    LockUnfold(s, now, draw, c);
    ScoredThenSpawned(s, now, draw, c);
  }

  /** The session a successful lock produces, stated without the lock. */
  lemma ScoredThenSpawned(s: Session, now: int, draw: Kind, c: Cleared)
    requires Valid(s) && WellFormed(c.grid)
    ensures var t := Spawn(Scored(s, c), now, draw);
            t.grid == c.grid && t.score == s.score + c.points && t.canHold &&
            (t.level, t.levelScore) == LevelUp(s.level, s.levelScore + c.points) &&
            t.current.kind == s.next.kind && t.next == NewPiece(draw, Pos(SpawnX, -1), now) &&
            t.held == s.held && GhostFresh(t) &&
            (t.going <==> s.going && CanFall(s.next, c.grid))
  {
    SpawnResult(Scored(s, c), now, draw);
  }

  /** A lock whose line clearing succeeds scores and then spawns. */
  lemma LockUnfold(s: Session, now: int, draw: Kind, c: Cleared)
    requires Valid(s) && ClearLines(Transfer(s.grid, s.current)) == Some(c)
    ensures WellFormed(c.grid) && Lock(s, now, draw) == Ran(Spawn(Scored(s, c), now, draw))
  {
  }

  /** With at most four full rows once the piece is written in, a lock
      does not crash. */
  lemma FewRowsNoCrash(s: Session, now: int, draw: Kind)
    requires Valid(s) && FullCount(Transfer(s.grid, s.current)) <= 4
    ensures !Lock(s, now, draw).Crashed?
  {
    FewFullRowsClear(Transfer(s.grid, s.current));
  }

  // ------------------------------------------------------------- gravity

  /** Gravity as the game code writes it: once the drop interval has passed
      the piece moves down a row, whether or not that row is free. */
  function AutoDropAsWritten(p: Piece, now: int, interval: int): (r: Piece)
    ensures r.kind == p.kind && r.angle == p.angle && r.pos.x == p.pos.x
    ensures now - p.lastDrop > interval ==> r.pos.y == p.pos.y + 1
    ensures now - p.lastDrop <= interval ==> r == p
  {
    if now - p.lastDrop > interval then Drop(p, now) else p
  }

  /** Gravity as intended: once the drop interval has passed the piece moves
      down a row if that row is free, like every other drop; a piece that
      cannot fall stays put, and its lock timer is started if it is not
      running yet. */
  function AutoDrop(s: Session, now: int, interval: int): (r: Session)
    requires Valid(s)
    ensures Valid(r) && r == s.(current := r.current, ghostPos := r.ghostPos)
  {
    if now - s.current.lastDrop <= interval then s
    else if CanFall(s.current, s.grid) then SoftDrop(s, now)
    else if s.current.lockStart > 0 then s
    else Moved(s, s.current, now)
  }

  /** The game code's gravity lets a resting piece sink: when the drop
      interval is below the lock delay, the interval runs out before the
      lock timer does, and the piece moves into an occupied pose. */
  lemma AutoDropAsWrittenSinks(p: Piece, g: Grid, now: int, interval: int)
    requires WellFormed(g) && !CanFall(p, g)
    requires 0 < p.lockStart == p.lastDrop && interval < LockDelay
    requires p.lastDrop + interval < now <= p.lockStart + LockDelay
    ensures !LockDue(p, now)
    ensures Collides(p.kind, p.angle, AutoDropAsWritten(p, now, interval).pos, g)
  {
  }

  /** The concrete case: an O piece resting on the floor of an empty field
      at level 4 (drop interval about 472 ms) is pushed below the floor
      and leaves the field. */
  lemma AutoDropAsWrittenLeavesField()
    ensures var g := EmptyGrid();
            var p := Piece(O, Pos(4, 18), 0, 1000, 1000);
            var q := AutoDropAsWritten(p, 1473, 472);
            Placed(p) && !CanFall(p, g) && !LockDue(p, 1473) &&
            Collides(O, 0, q.pos, g) && !Placed(q)
  {
    var g := EmptyGrid();
    var p := Piece(O, Pos(4, 18), 0, 1000, 1000);
    var q := AutoDropAsWritten(p, 1473, 472);
    CoversO(0, 0, 1);
    assert Covers(O, 0, 0, 1);
    BelowFloorCollides(O, 0, Pos(4, 20), g);
    assert CellBlocked(g, 4, 20);
    assert Collides(O, 0, Pos(4, 19), g);
  }

  /** Gravity as intended agrees with the game code while the row below is
      free, running the grounded test on the dropped piece; it never moves a
      piece that cannot fall, keeps a free piece free, starts the lock timer
      of a resting piece once, and then leaves it alone until the lock. */
  lemma AutoDropKeepsFree(s: Session, now: int, interval: int)
    requires Valid(s)
    ensures var r := AutoDrop(s, now, interval);
            var due := now - s.current.lastDrop > interval;
            (!due ==> r == s) &&
            (due && CanFall(s.current, s.grid) ==>
               r.current.pos == AutoDropAsWritten(s.current, now, interval).pos && GhostFresh(r)) &&
            (!CanFall(s.current, s.grid) ==> r.current.pos == s.current.pos) &&
            (due && !CanFall(s.current, s.grid) && now > 0 ==> r.current.lockStart > 0) &&
            (!Collides(s.current.kind, s.current.angle, s.current.pos, s.grid) ==>
               !Collides(r.current.kind, r.current.angle, r.current.pos, r.grid))
    ensures now - s.current.lastDrop > interval && CanFall(s.current, s.grid) ==>
              AutoDrop(s, now, interval).current == CheckGrounded(Drop(s.current, now), s.grid, now)
    ensures !CanFall(s.current, s.grid) && s.current.lockStart > 0 ==> AutoDrop(s, now, interval) == s
    ensures now - s.current.lastDrop > interval && !CanFall(s.current, s.grid) && s.current.lockStart <= 0 ==>
              AutoDrop(s, now, interval).current == CheckGrounded(s.current, s.grid, now)
  {
  }

  /** The lock timer has been running for longer than the lock delay. */
  predicate LockDue(p: Piece, now: int)
  {
    p.lockStart > 0 && now - p.lockStart > LockDelay
  }

  /** One frame: the keys in order, then either the lock (lock timer running
      for longer than the lock delay) or gravity. `interval` is the drop
      interval of the current level; `holdDraw` and `lockDraw` are the kinds
      the random draws of a first hold and of a lock produce. A frame
      without a lock leaves the grid, the score and the level alone. */
  function Update(s: Session, keys: seq<Key>, now: int, interval: int, holdDraw: Kind, lockDraw: Kind): (r: Outcome)
    requires Valid(s)
    ensures !s.going <==> r.Stopped?
    ensures r.Ran? ==> Valid(r.session)
    ensures s.going && !LockDue(PressAll(s, keys, now, holdDraw).current, now) ==>
              r.Ran? && r.session.going && r.session.grid == s.grid &&
              r.session.score == s.score && r.session.level == s.level
  {
    if !s.going then Stopped
    else
      var t := PressAll(s, keys, now, holdDraw);
      if LockDue(t.current, now) then Lock(t, now, lockDraw)
      else Ran(AutoDrop(t, now, interval))
  }

  /** Over one frame the score never drops and the level rises by at most
      one, never past the top level. */
  lemma UpdateLevels(s: Session, keys: seq<Key>, now: int, interval: int, holdDraw: Kind, lockDraw: Kind)
    requires Valid(s) && Update(s, keys, now, interval, holdDraw, lockDraw).Ran?
    ensures var t := Update(s, keys, now, interval, holdDraw, lockDraw).session;
            t.score >= s.score && s.level <= t.level <= s.level + 1 && t.level <= MaxLevel
  {
    var t := PressAll(s, keys, now, holdDraw);
    if LockDue(t.current, now) {
      LockLevels(t, now, lockDraw);
    }
  }

  /** What one frame of a running game does after the keys: a due lock
      writes the piece in, clears lines, scores them and brings in the next
      piece, ending the game exactly when that piece cannot fall; otherwise
      gravity acts on the piece and nothing else. */
  lemma UpdateResult(s: Session, keys: seq<Key>, now: int, interval: int, holdDraw: Kind, lockDraw: Kind)
    requires Valid(s) && s.going
    ensures var t := PressAll(s, keys, now, holdDraw);
            var r := Update(s, keys, now, interval, holdDraw, lockDraw);
            var cleared := ClearLines(Transfer(t.grid, t.current));
            (r.Crashed? <==> LockDue(t.current, now) && cleared.None?) &&
            (LockDue(t.current, now) && cleared.Some? ==>
               r.Ran? && r.session.grid == cleared.value.grid &&
               r.session.score == s.score + cleared.value.points && r.session.canHold &&
               r.session.current.kind == t.next.kind &&
               r.session.next == NewPiece(lockDraw, Pos(SpawnX, -1), now) &&
               (r.session.going <==> CanFall(t.next, cleared.value.grid))) &&
            (!LockDue(t.current, now) ==>
               r.Ran? && r.session == AutoDrop(t, now, interval))
  {
    var t := PressAll(s, keys, now, holdDraw);
    var cleared := ClearLines(Transfer(t.grid, t.current));
    if LockDue(t.current, now) && cleared.Some? {
      LockResult(t, now, lockDraw, cleared.value);
    }
  }

  /** A frame without a due lock moves the piece only by gravity: one row
      down into a free pose once the drop interval has passed, never into a
      blocked one. */
  lemma UpdateFalls(s: Session, keys: seq<Key>, now: int, interval: int, holdDraw: Kind, lockDraw: Kind)
    requires Valid(s) && s.going && !LockDue(PressAll(s, keys, now, holdDraw).current, now)
    ensures var t := PressAll(s, keys, now, holdDraw);
            var r := Update(s, keys, now, interval, holdDraw, lockDraw).session;
            var due := now - t.current.lastDrop > interval;
            (!due ==> r == t) &&
            (due && CanFall(t.current, t.grid) ==>
               r.current.pos == Pos(t.current.pos.x, t.current.pos.y + 1) && GhostFresh(r)) &&
            (!CanFall(t.current, t.grid) ==> r.current.pos == t.current.pos) &&
            r.grid == t.grid && r.score == t.score && r.held == t.held && r.next == t.next
    ensures var t := PressAll(s, keys, now, holdDraw);
            var r := Update(s, keys, now, interval, holdDraw, lockDraw).session;
            var due := now - t.current.lastDrop > interval;
            (due && CanFall(t.current, t.grid) ==> r.current == CheckGrounded(Drop(t.current, now), t.grid, now)) &&
            (!CanFall(t.current, t.grid) && t.current.lockStart > 0 ==> r == t) &&
            (due && !CanFall(t.current, t.grid) && t.current.lockStart <= 0 ==> r.current == CheckGrounded(t.current, t.grid, now))
  {
    var t := PressAll(s, keys, now, holdDraw);
    UpdateIsGravity(s, keys, now, interval, holdDraw, lockDraw);
    AutoDropKeepsFree(t, now, interval);
  }

  /** A running frame without a due lock is gravity after the keys. */
  lemma UpdateIsGravity(s: Session, keys: seq<Key>, now: int, interval: int, holdDraw: Kind, lockDraw: Kind)
    requires Valid(s) && s.going && !LockDue(PressAll(s, keys, now, holdDraw).current, now)
    ensures Update(s, keys, now, interval, holdDraw, lockDraw) == Ran(AutoDrop(PressAll(s, keys, now, holdDraw), now, interval))
  {
  }
}

=== FILE: playfield.dfy ===
/** The board operations: locking a piece into the grid, the ghost
    projection, and line clearing with its scoring and levelling. */
module Playfield {
  import opened Wrappers
  import opened Blocks
  import opened Tetromino

  // -------------------------------------------------------------- transfer

  /** Grid cell (c, r) lies under a covered cell of box row `cy`; the row
      index is read the Python way, so a cell above the field lands in a
      bottom row. */
  predicate PaintsAt(p: Piece, cy: int, c: int, r: int)
  {
    0 <= cy < Dim(p.kind) && Covers(p.kind, p.angle, c - p.pos.x, cy) &&
    -Height <= p.pos.y + cy < Height && PyRow(p.pos.y + cy) == r
  }

  /** Grid cell (c, r) receives the piece's kind when the piece is locked. */
  predicate Painted(p: Piece, c: int, r: int)
  {
    exists cy | 0 <= cy < Dim(p.kind) :: PaintsAt(p, cy, c, r)
  }

  function SetCell(g: Grid, r: int, c: int, b: Block): (h: Grid)
    requires WellFormed(g) && 0 <= r < Height && 0 <= c < Width
    ensures WellFormed(h)
  {
    g[r := g[r][c := b]]
  }

  /** Paint the covered cells `cx..` of box row `cy`. */
  function PaintRow(g: Grid, p: Piece, cy: int, cx: nat): (h: Grid)
    requires WellFormed(g) && Placed(p) && 0 <= cy < Dim(p.kind) && cx <= Dim(p.kind)
    ensures WellFormed(h)
    ensures forall r, c | 0 <= r < Height && 0 <= c < Width ::
              h[r][c] == if cx <= c - p.pos.x && PaintsAt(p, cy, c, r) then p.kind else g[r][c]
    decreases Dim(p.kind) - cx
  {
    if cx == Dim(p.kind) then g
    else
      var g' := if Covers(p.kind, p.angle, cx, cy)
                then SetCell(g, PyRow(p.pos.y + cy), p.pos.x + cx, p.kind) else g;
      PaintRow(g', p, cy, cx + 1)
  }

  /** Paint box rows `cy..`. */
  function PaintBox(g: Grid, p: Piece, cy: nat): (h: Grid)
    requires WellFormed(g) && Placed(p) && cy <= Dim(p.kind)
    ensures WellFormed(h)
    ensures forall r, c | 0 <= r < Height && 0 <= c < Width ::
              h[r][c] == if exists y | cy <= y < Dim(p.kind) :: PaintsAt(p, y, c, r) then p.kind else g[r][c]
    decreases Dim(p.kind) - cy
  {
    if cy == Dim(p.kind) then g
    else PaintBox(PaintRow(g, p, cy, 0), p, cy + 1)
  }

  /** Lock a piece into the grid: every cell under a covered box cell gets
      the piece's kind, every other cell keeps its content. */
  function Transfer(g: Grid, p: Piece): (h: Grid)
    requires WellFormed(g) && Placed(p)
    ensures WellFormed(h)
    ensures forall r, c | 0 <= r < Height && 0 <= c < Width ::
              h[r][c] == if Painted(p, c, r) then p.kind else g[r][c]
  {
    PaintBox(g, p, 0)
  }

  /** All covered cells of the piece are in the visible rows. */
  predicate InField(p: Piece)
  {
    forall cy, cx | 0 <= cy < Dim(p.kind) && 0 <= cx < Dim(p.kind) && Covers(p.kind, p.angle, cx, cy) ::
      p.pos.y + cy >= 0
  }

  /** With every cell in the visible rows, locking writes the kind into
      exactly the piece's covered cells and leaves every other cell alone. */
  lemma TransferExact(g: Grid, p: Piece)
    requires WellFormed(g) && Placed(p) && InField(p)
    ensures forall r, c | 0 <= r < Height && 0 <= c < Width ::
              Transfer(g, p)[r][c] ==
                if Covers(p.kind, p.angle, c - p.pos.x, r - p.pos.y) then p.kind else g[r][c]
  {
    forall r, c | 0 <= r < Height && 0 <= c < Width
      ensures Painted(p, c, r) <==> Covers(p.kind, p.angle, c - p.pos.x, r - p.pos.y)
    {
      if Covers(p.kind, p.angle, c - p.pos.x, r - p.pos.y) {
        assert PaintsAt(p, r - p.pos.y, c, r);
      }
      if Painted(p, c, r) {
        var cy :| 0 <= cy < Dim(p.kind) && PaintsAt(p, cy, c, r);
        assert p.pos.y + cy >= 0;
      }
    }
  }

  // ----------------------------------------------------------------- ghost

  /** The row where a shape falling straight down from row `y` in column
      `x` comes to rest: the game code steps down while the next row is free. */
  function LandingRow(k: Kind, a: Angle, x: int, y: int, g: Grid): (r: int)
    requires WellFormed(g)
    ensures r >= y
    decreases Height - y
  {
    if Collides(k, a, Pos(x, y + 1), g) then y
    else
      FloorBound(k, a, Pos(x, y + 1), g);
      LandingRow(k, a, x, y + 1, g)
  }

  /** The landing row is a resting place: one row lower collides, and every
      row passed on the way is free. */
  lemma {:induction false} LandingRowRests(k: Kind, a: Angle, x: int, y: int, g: Grid)
    requires WellFormed(g)
    ensures Collides(k, a, Pos(x, LandingRow(k, a, x, y, g) + 1), g)
    ensures forall z | y < z <= LandingRow(k, a, x, y, g) :: !Collides(k, a, Pos(x, z), g)
    decreases Height - y
  {
    if !Collides(k, a, Pos(x, y + 1), g) {
      FloorBound(k, a, Pos(x, y + 1), g);
      LandingRowRests(k, a, x, y + 1, g);
    }
  }

  /** Falling again from the landing row goes nowhere. */
  lemma LandingRowSettles(k: Kind, a: Angle, x: int, y: int, g: Grid)
    requires WellFormed(g)
    ensures LandingRow(k, a, x, LandingRow(k, a, x, y, g), g) == LandingRow(k, a, x, y, g)
  {
    LandingRowRests(k, a, x, y, g);
  }

  /** From the spawn rows down, the fall to the landing row is never longer
      than the field is high. */
  lemma LandingWithinReach(k: Kind, a: Angle, x: int, y: int, g: Grid)
    requires WellFormed(g) && y >= -1
    ensures LandingRow(k, a, x, y, g) - y <= Height
  {
    var r := LandingRow(k, a, x, y, g);
    LandingRowRests(k, a, x, y, g);
    if r > y {
      assert !Collides(k, a, Pos(x, r), g);
      FloorBound(k, a, Pos(x, r), g);
    }
  }

  /** The ghost: the piece's pose after falling as far as it can. */
  function Ghost(p: Piece, g: Grid): (r: Pos)
    requires WellFormed(g)
    ensures r.x == p.pos.x && r.y >= p.pos.y
    ensures Collides(p.kind, p.angle, Pos(r.x, r.y + 1), g)
    ensures forall z | p.pos.y < z <= r.y :: !Collides(p.kind, p.angle, Pos(r.x, z), g)
  {
    LandingRowRests(p.kind, p.angle, p.pos.x, p.pos.y, g);
    Pos(p.pos.x, LandingRow(p.kind, p.angle, p.pos.x, p.pos.y, g))
  }

  /** A free piece has a free ghost. */
  lemma GhostIsFree(p: Piece, g: Grid)
    requires WellFormed(g) && !Collides(p.kind, p.angle, p.pos, g)
    ensures !Collides(p.kind, p.angle, Ghost(p, g), g)
  {
    var r := Ghost(p, g);
    if r.y > p.pos.y {
      assert !Collides(p.kind, p.angle, Pos(r.x, r.y), g);
    }
  }

  /** Two poses of one column that both end a free fall from (x, y) are the same. */
  lemma LandingUnique(k: Kind, a: Angle, x: int, y: int, r1: int, r2: int, g: Grid)
    requires WellFormed(g) && y <= r1 && y <= r2
    requires Collides(k, a, Pos(x, r1 + 1), g) && Collides(k, a, Pos(x, r2 + 1), g)
    requires forall z | y < z <= r1 :: !Collides(k, a, Pos(x, z), g)
    requires forall z | y < z <= r2 :: !Collides(k, a, Pos(x, z), g)
    ensures r1 == r2
  {
  }

  /** A shape that can fall one row lands where it would from one row lower. */
  lemma LandingStep(k: Kind, a: Angle, x: int, y: int, g: Grid)
    requires WellFormed(g) && !Collides(k, a, Pos(x, y + 1), g)
    ensures LandingRow(k, a, x, y, g) == LandingRow(k, a, x, y + 1, g)
  {
  }

  /** A piece that can fall one row has the same ghost one row lower. */
  lemma GhostAfterDrop(p: Piece, g: Grid, now: int)
    requires WellFormed(g) && !Collides(p.kind, p.angle, Pos(p.pos.x, p.pos.y + 1), g)
    ensures Ghost(Drop(p, now), g) == Ghost(p, g)
  {
    LandingStep(p.kind, p.angle, p.pos.x, p.pos.y, g);
  }

  // ---------------------------------------------------------- full rows

  /** Number of filled cells among the first `n` cells of a row. */
  function Filled(row: Row, n: nat): nat
    requires n <= |row|
  {
    if n == 0 then 0 else Filled(row, n - 1) + (if row[n - 1] != Empty then 1 else 0)
  }

  /** The game code's fullness test: as many filled cells as the field is wide. */
  predicate RowFull(row: Row)
  {
    Filled(row, |row|) == Width
  }

  lemma {:induction false} FilledAll(row: Row, n: nat)
    requires n <= |row|
    ensures Filled(row, n) <= n
    ensures Filled(row, n) == n <==> forall c | 0 <= c < n :: row[c] != Empty
    decreases n
  {
    if n > 0 {
      FilledAll(row, n - 1);
    }
  }

  /** A row of the field is full exactly when none of its cells is empty. */
  lemma FullIffNoEmptyCell(row: Row)
    requires |row| == Width
    ensures RowFull(row) <==> forall c | 0 <= c < Width :: row[c] != Empty
  {
    FilledAll(row, |row|);
  }

  lemma EmptyRowNotFull()
    ensures !RowFull(EmptyRow)
  {
    FullIffNoEmptyCell(EmptyRow);
    assert EmptyRow[0] == Empty;
  }

  lemma EmptiesAdd(m: nat, n: nat)
    ensures Empties(m) + Empties(n) == Empties(m + n)
  {
    var a, b := Empties(m) + Empties(n), Empties(m + n);
    EmptiesAreEmpty(m);
    EmptiesAreEmpty(n);
    EmptiesAreEmpty(m + n);
    assert forall i | 0 <= i < m + n :: a[i] == b[i];
  }

  /** Number of full rows. */
  function FullCount(rows: seq<Row>): nat
  {
    if |rows| == 0 then 0
    else FullCount(rows[..|rows| - 1]) + (if RowFull(rows[|rows| - 1]) then 1 else 0)
  }

  /** The rows that are not full, in order. */
  function NonFull(rows: seq<Row>): seq<Row>
  {
    if |rows| == 0 then []
    else NonFull(rows[..|rows| - 1]) + (if RowFull(rows[|rows| - 1]) then [] else [rows[|rows| - 1]])
  }

  /** Counting and filtering distribute over concatenation. */
  lemma {:induction false} SplitRows(a: seq<Row>, b: seq<Row>)
    ensures FullCount(a + b) == FullCount(a) + FullCount(b)
    ensures NonFull(a + b) == NonFull(a) + NonFull(b)
    decreases |b|
  {
    if |b| > 0 {
      var n := |b|;
      assert (a + b)[..|a + b| - 1] == a + b[..n - 1];
      SplitRows(a, b[..n - 1]);
    } else {
      assert a + b == a;
    }
  }

  /** Filtering drops exactly the full rows. */
  lemma {:induction false} NonFullSize(rows: seq<Row>)
    ensures |NonFull(rows)| + FullCount(rows) == |rows|
    decreases |rows|
  {
    if |rows| > 0 {
      NonFullSize(rows[..|rows| - 1]);
    }
  }

  /** Filtering keeps no full row. */
  lemma {:induction false} NonFullAreNotFull(rows: seq<Row>)
    ensures forall i | 0 <= i < |NonFull(rows)| :: !RowFull(NonFull(rows)[i])
    decreases |rows|
  {
    if |rows| > 0 {
      NonFullAreNotFull(rows[..|rows| - 1]);
    }
  }

  /** Filtering keeps rows as wide as they were. */
  lemma {:induction false} NonFullWide(rows: seq<Row>)
    requires Wide(rows)
    ensures Wide(NonFull(rows))
    decreases |rows|
  {
    if |rows| > 0 {
      NonFullWide(rows[..|rows| - 1]);
    }
  }

  /** Filtering keeps every row when none is full. */
  lemma {:induction false} NoneFullKept(rows: seq<Row>)
    requires forall i | 0 <= i < |rows| :: !RowFull(rows[i])
    ensures NonFull(rows) == rows && FullCount(rows) == 0
    decreases |rows|
  {
    if |rows| > 0 {
      var n := |rows|;
      NoneFullKept(rows[..n - 1]);
      assert rows == rows[..n - 1] + [rows[n - 1]];
    }
  }

  /** A last row that is not full adds nothing to the count and is kept last. */
  lemma SplitLast(rows: seq<Row>, n: nat)
    requires n == |rows| >= 1 && !RowFull(rows[n - 1])
    ensures FullCount(rows) == FullCount(rows[..n - 1])
    ensures NonFull(rows) == NonFull(rows[..n - 1]) + [rows[n - 1]]
  {
  }

  /** A run of full rows at the end adds its length to the count and nothing
      to the rows kept. */
  lemma {:induction false} FullRunCounts(rows: seq<Row>, m: nat)
    requires m <= |rows| && forall i | m <= i < |rows| :: RowFull(rows[i])
    ensures FullCount(rows) == FullCount(rows[..m]) + (|rows| - m)
    ensures NonFull(rows) == NonFull(rows[..m])
    decreases |rows|
  {
    var n := |rows|;
    if n > m {
      var p := rows[..n - 1];
      assert p[..m] == rows[..m];
      FullRunCounts(p, m);
    } else {
      assert rows[..m] == rows;
    }
  }

  lemma EmptiesNotFull(n: nat)
    ensures FullCount(Empties(n)) == 0 && NonFull(Empties(n)) == Empties(n)
  {
    EmptyRowNotFull();
    EmptiesAreEmpty(n);
    NoneFullKept(Empties(n));
  }

  // ---------------------------------------------------------- line clear

  /** Every row is as wide as the field. */
  predicate Wide(rows: seq<Row>)
  {
    forall i | 0 <= i < |rows| :: |rows[i]| == Width
  }

  /** Every row moves down one place, the last one dropping out, and a fresh
      empty row enters at the top. */
  function ShiftDown(rows: seq<Row>): (r: seq<Row>)
    requires |rows| >= 1
    ensures |r| == |rows|
  {
    [EmptyRow] + rows[..|rows| - 1]
  }

  /** Shifting out a full last row leaves one full row fewer. */
  lemma ShiftRemovesFullRow(rows: seq<Row>)
    requires |rows| >= 1 && RowFull(rows[|rows| - 1])
    ensures FullCount(ShiftDown(rows)) == FullCount(rows) - 1
  {
    var n := |rows|;
    SplitRows([EmptyRow], rows[..n - 1]);
    EmptiesNotFull(1);
    assert Empties(1) == [EmptyRow];
  }

  /** The game code's inner loop at row `y`, with `rows` the field's rows
      0..y: while the last row is full, shift it out. Returns the new rows and
      the number of shifts (the combo). */
  function ClearBottom(rows: seq<Row>): (r: (seq<Row>, nat))
    requires |rows| >= 1
    ensures |r.0| == |rows|
    decreases FullCount(rows)
  {
    if RowFull(rows[|rows| - 1]) then
      ShiftRemovesFullRow(rows);
      var (h, k) := ClearBottom(ShiftDown(rows));
      (h, k + 1)
    else (rows, 0)
  }

  /** The inner loop removes the run of full rows at the bottom (the row
      above the run is not full) and puts as many empty rows on top. */
  lemma {:induction false} ClearBottomShape(rows: seq<Row>, h: seq<Row>, k: nat, n: nat)
    requires n == |rows| >= 1 && ClearBottom(rows) == (h, k)
    ensures k <= n
    ensures forall i | n - k <= i < n :: RowFull(rows[i])
    ensures k < n ==> !RowFull(rows[n - 1 - k])
    ensures h == Empties(k) + rows[..n - k]
    decreases FullCount(rows)
  {
    if RowFull(rows[n - 1]) {
      var s := ShiftDown(rows);
      ShiftRemovesFullRow(rows);
      var (h', k') := ClearBottom(s);
      ClearBottomShape(s, h', k', n);
      ShapeStep(rows, s, h', k', n);
    } else {
      assert rows[..n] == rows;
    }
  }

  /** The shape of the inner loop's result after a first shift carries back
      to the rows before the shift, with one more row removed. */
  lemma ShapeStep(rows: seq<Row>, s: seq<Row>, h: seq<Row>, k: nat, n: nat)
    requires n == |rows| >= 1 && RowFull(rows[n - 1]) && s == ShiftDown(rows)
    requires k <= n
    requires forall i | n - k <= i < n :: RowFull(s[i])
    requires k < n ==> !RowFull(s[n - 1 - k])
    requires h == Empties(k) + s[..n - k]
    ensures k + 1 <= n
    ensures forall i | n - k - 1 <= i < n :: RowFull(rows[i])
    ensures k + 1 < n ==> !RowFull(rows[n - 2 - k])
    ensures h == Empties(k + 1) + rows[..n - k - 1]
  {
    EmptyRowNotFull();
    assert !RowFull(s[0]);
    ShiftedPrefix(rows, k);
    forall i | n - k - 1 <= i < n ensures RowFull(rows[i]) {
      if i < n - 1 { assert rows[i] == s[i + 1]; }
    }
    if k + 1 < n {
      assert rows[n - 2 - k] == s[n - 1 - k];
    }
  }

  /** After a shift, the first `n - k` rows are a fresh empty row followed by
      the first `n - k - 1` rows from before. */
  lemma ShiftedPrefix(rows: seq<Row>, k: nat)
    requires 0 <= k < |rows|
    ensures Empties(k) + ShiftDown(rows)[..|rows| - k] == Empties(k + 1) + rows[..|rows| - k - 1]
  {
    var n := |rows|;
    var a, b := Empties(k) + ShiftDown(rows)[..n - k], Empties(k + 1) + rows[..n - k - 1];
    EmptiesAreEmpty(k);
    EmptiesAreEmpty(k + 1);
    assert forall i | 0 <= i < n :: a[i] == b[i];
  }

  /** The game code's outer loop over rows y = |rows|-1 down to 1, each with
      its inner loop; row 0 is never examined. The combos are listed from the
      bottom row upwards. */
  function SweepRows(rows: seq<Row>): (r: (seq<Row>, seq<nat>))
    requires |rows| >= 1
    ensures |r.0| == |rows| && |r.1| == |rows| - 1
    decreases |rows|
  {
    if |rows| == 1 then (rows, [])
    else
      var (h, k) := ClearBottom(rows);
      var (top, cs) := SweepRows(h[..|h| - 1]);
      (top + [h[|h| - 1]], [k] + cs)
  }

  /** Some row other than row 0 is full. */
  predicate AnyFull(rows: seq<Row>)
  {
    exists i | 1 <= i < |rows| :: RowFull(rows[i])
  }

  function Sum(cs: seq<nat>): nat
  {
    if |cs| == 0 then 0 else cs[0] + Sum(cs[1..])
  }

  /** Every full row removed, the others kept in order below fresh empty rows. */
  function Compact(rows: seq<Row>): seq<Row>
  {
    Empties(FullCount(rows)) + NonFull(rows)
  }

  /** Empty rows on top count for nothing. */
  lemma PadCounts(k: nat, q: seq<Row>)
    ensures FullCount(Empties(k) + q) == FullCount(q)
    ensures NonFull(Empties(k) + q) == Empties(k) + NonFull(q)
  {
    SplitRows(Empties(k), q);
    EmptiesNotFull(k);
  }

  /** The last row left by the inner loop is not full: it is the row above
      the removed run, or a fresh empty row when every row was removed. */
  lemma StepLeavesLast(rows: seq<Row>, h: seq<Row>, k: nat, n: nat)
    requires n == |rows| >= 2 && k <= n
    requires k < n ==> !RowFull(rows[n - 1 - k])
    requires h == Empties(k) + rows[..n - k]
    ensures |h| == n && !RowFull(h[n - 1])
  {
    if k < n {
      assert h[n - 1] == rows[n - 1 - k];
    } else {
      EmptiesAreEmpty(k);
      EmptyRowNotFull();
    }
  }

  /** One inner loop at the last row, as the sweep's proof uses it. */
  lemma StepFacts(rows: seq<Row>, h: seq<Row>, k: nat, n: nat)
    requires n == |rows| >= 2 && ClearBottom(rows) == (h, k)
    ensures |h| == n && !RowFull(h[n - 1])
    ensures FullCount(rows) == FullCount(h[..n - 1]) + k
    ensures Empties(k) + NonFull(rows) == NonFull(h[..n - 1]) + [h[n - 1]]
    ensures k == 0 ==> h == rows
    ensures k > 0 ==> RowFull(rows[n - 1])
  {
    ClearBottomShape(rows, h, k, n);
    RunFacts(rows, h, k, n);
  }

  /** `StepFacts` for any result of the shape `ClearBottomShape` describes. */
  lemma RunFacts(rows: seq<Row>, h: seq<Row>, k: nat, n: nat)
    requires n == |rows| >= 2 && k <= n
    requires forall i | n - k <= i < n :: RowFull(rows[i])
    requires k < n ==> !RowFull(rows[n - 1 - k])
    requires h == Empties(k) + rows[..n - k]
    ensures |h| == n && !RowFull(h[n - 1])
    ensures FullCount(rows) == FullCount(h[..n - 1]) + k
    ensures Empties(k) + NonFull(rows) == NonFull(h[..n - 1]) + [h[n - 1]]
    ensures k == 0 ==> h == rows
    ensures k > 0 ==> RowFull(rows[n - 1])
  {
    StepLeavesLast(rows, h, k, n);
    SplitLast(h, n);
    FullRunCounts(rows, n - k);
    PadCounts(k, rows[..n - k]);
    if k == 0 {
      assert h == rows[..n];
    }
  }

  /** Rows kept below at least one fresh empty row, none of which is full
      from row 1 on, are not full. */
  lemma QuietKept(h: seq<Row>, k: nat, q: seq<Row>)
    requires k > 0 && h == Empties(k) + q && |h| >= 2
    requires !RowFull(h[|h| - 1]) && !AnyFull(h[..|h| - 1])
    ensures forall i | 0 <= i < |q| :: !RowFull(q[i])
  {
    var n := |h|;
    forall i | 0 <= i < |q| ensures !RowFull(q[i]) {
      assert h[k + i] == q[i];
      if k + i < n - 1 {
        assert h[k + i] == h[..n - 1][k + i];
      }
    }
  }

  /** When the inner loop at the last row removed something and no row
      above it is full afterwards, every full row was in the removed run. */
  lemma StepQuiet(rows: seq<Row>, h: seq<Row>, k: nat, n: nat)
    requires n == |rows| >= 2 && ClearBottom(rows) == (h, k)
    requires k > 0 && !AnyFull(h[..n - 1])
    ensures FullCount(rows) == k && h == Compact(rows)
  {
    ClearBottomShape(rows, h, k, n);
    QuietRun(rows, h, k, n);
  }

  /** `StepQuiet` for any result of the shape `ClearBottomShape` describes. */
  lemma QuietRun(rows: seq<Row>, h: seq<Row>, k: nat, n: nat)
    requires n == |rows| >= 2 && 0 < k <= n
    requires forall i | n - k <= i < n :: RowFull(rows[i])
    requires k < n ==> !RowFull(rows[n - 1 - k])
    requires h == Empties(k) + rows[..n - k]
    requires !AnyFull(h[..n - 1])
    ensures FullCount(rows) == k && h == Compact(rows)
  {
    var q := rows[..n - k];
    StepLeavesLast(rows, h, k, n);
    QuietKept(h, k, q);
    NoneFullKept(q);
    FullRunCounts(rows, n - k);
  }

  /** The empty rows the rest of the sweep puts on top join those of the
      inner loop at the last row. */
  lemma MergeEmpties(a: nat, k: nat, p: seq<Row>, q: seq<Row>, last: Row)
    requires Empties(k) + q == p + [last]
    ensures Empties(a) + p + [last] == Empties(a + k) + q
  {
    EmptiesAdd(a, k);
    calc {
      Empties(a) + p + [last];
      Empties(a) + (p + [last]);
      Empties(a) + (Empties(k) + q);
      Empties(a) + Empties(k) + q;
    }
  }

  lemma SumCons(k: nat, cs: seq<nat>)
    ensures Sum([k] + cs) == k + Sum(cs)
  {
    assert ([k] + cs)[1..] == cs;
  }

  /** Closed form of the sweep: when some row other than row 0 is full,
      every full row is removed (row 0 too, once it has moved down), the
      others slide down in order below as many empty rows, and the combos add
      up to the number of rows removed; otherwise nothing changes and every
      combo is zero. */
  lemma {:induction false} SweepCompacts(rows: seq<Row>)
    requires |rows| >= 1
    ensures AnyFull(rows) ==> SweepRows(rows).0 == Compact(rows) && Sum(SweepRows(rows).1) == FullCount(rows)
    ensures !AnyFull(rows) ==> SweepRows(rows).0 == rows && Sum(SweepRows(rows).1) == 0
    decreases |rows|
  {
    var n := |rows|;
    if n > 1 {
      var (h, k) := ClearBottom(rows);
      var above := h[..n - 1];
      var (top, cs) := SweepRows(above);
      SweepUnfold(rows, h, k, top, cs, n);
      SumCons(k, cs);
      SweepCompacts(above);
      StepFacts(rows, h, k, n);
      if k > 0 && !AnyFull(above) {
        StepQuiet(rows, h, k, n);
      }
      SweepStep(rows, h, k, top, cs, n);
    } else {
      assert !AnyFull(rows);
    }
  }

  /** One level of the outer loop: the inner loop at the last row, then the
      rest of the sweep on the rows above it. */
  lemma SweepUnfold(rows: seq<Row>, h: seq<Row>, k: nat, top: seq<Row>, cs: seq<nat>, n: nat)
    requires n == |rows| >= 2 && ClearBottom(rows) == (h, k)
    requires SweepRows(h[..n - 1]) == (top, cs)
    ensures |h| == n && SweepRows(rows) == (top + [h[n - 1]], [k] + cs)
  {
  }

  /** One step of `SweepCompacts`, for any `h`, `k` with the properties the
      inner loop at the last row guarantees and any `top`, `cs` with the
      properties the rest of the sweep guarantees. */
  lemma SweepStep(rows: seq<Row>, h: seq<Row>, k: nat, top: seq<Row>, cs: seq<nat>, n: nat)
    requires n == |rows| >= 2 && |h| == n
    requires !RowFull(h[n - 1])
    requires FullCount(rows) == FullCount(h[..n - 1]) + k
    requires Empties(k) + NonFull(rows) == NonFull(h[..n - 1]) + [h[n - 1]]
    requires k == 0 ==> h == rows
    requires k > 0 ==> RowFull(rows[n - 1])
    requires AnyFull(h[..n - 1]) ==> top == Compact(h[..n - 1]) && Sum(cs) == FullCount(h[..n - 1])
    requires !AnyFull(h[..n - 1]) ==> top == h[..n - 1] && Sum(cs) == 0
    requires k > 0 && !AnyFull(h[..n - 1]) ==> FullCount(rows) == k && h == Compact(rows)
    ensures AnyFull(rows) ==> top + [h[n - 1]] == Compact(rows) && k + Sum(cs) == FullCount(rows)
    ensures !AnyFull(rows) ==> top + [h[n - 1]] == rows && k + Sum(cs) == 0
  {
    var above := h[..n - 1];
    if AnyFull(above) {
      FullAboveKept(rows, h, k, n);
      MergeEmpties(FullCount(above), k, NonFull(above), NonFull(rows), h[n - 1]);
    } else if k > 0 {
      RunOnly(rows, h, top, n);
    } else {
      NothingFull(rows, top, n);
    }
  }

  /** A full row above the inner loop's last row was full before it too:
      either nothing moved, or the last row was full. */
  lemma FullAboveKept(rows: seq<Row>, h: seq<Row>, k: nat, n: nat)
    requires n == |rows| >= 2 && |h| == n
    requires k == 0 ==> h == rows
    requires k > 0 ==> RowFull(rows[n - 1])
    requires AnyFull(h[..n - 1])
    ensures AnyFull(rows)
  {
    if k == 0 {
      var i :| 1 <= i < n - 1 && RowFull(h[..n - 1][i]);
      assert RowFull(rows[i]);
    }
  }

  /** When the inner loop's run was the only full rows, the sweep ends with
      the loop's own result. */
  lemma RunOnly(rows: seq<Row>, h: seq<Row>, top: seq<Row>, n: nat)
    requires n == |rows| >= 2 && |h| == n
    requires RowFull(rows[n - 1])
    requires top == h[..n - 1]
    ensures AnyFull(rows) && top + [h[n - 1]] == h
  {
  }

  /** When neither the last row nor any row above it is full, the sweep
      changes nothing. */
  lemma NothingFull(rows: seq<Row>, top: seq<Row>, n: nat)
    requires n == |rows| >= 2 && !RowFull(rows[n - 1])
    requires !AnyFull(rows[..n - 1])
    requires top == rows[..n - 1]
    ensures !AnyFull(rows) && top + [rows[n - 1]] == rows
  {
    forall i | 1 <= i < n ensures !RowFull(rows[i]) {
      if i < n - 1 { assert rows[i] == rows[..n - 1][i]; }
    }
  }

  lemma {:induction false} SumZeros(cs: seq<nat>)
    requires Sum(cs) == 0
    ensures forall i | 0 <= i < |cs| :: cs[i] == 0
    decreases |cs|
  {
    if |cs| > 0 {
      SumZeros(cs[1..]);
      assert forall i | 1 <= i < |cs| :: cs[i] == cs[1..][i - 1];
    }
  }

  // --------------------------------------------------------------- scoring

  /** Points for the number of rows cleared at one row index. */
  const LineScore: seq<nat> := [0, 1, 3, 5, 8]

  /** Points of a list of shift counts, none above 4. */
  function Points(cs: seq<nat>): nat
    requires forall i | 0 <= i < |cs| :: cs[i] < |LineScore|
  {
    if |cs| == 0 then 0 else LineScore[cs[0]] + Points(cs[1..])
  }

  /** A run of `n` rows cleared at one index is worth between `n` and `2n` points. */
  lemma {:induction false} PointsBounds(cs: seq<nat>)
    requires forall i | 0 <= i < |cs| :: cs[i] < |LineScore|
    ensures Sum(cs) <= Points(cs) <= 2 * Sum(cs)
    decreases |cs|
  {
    if |cs| > 0 {
      PointsBounds(cs[1..]);
    }
  }

  /** No single count exceeds the total. */
  lemma {:induction false} CountBelowSum(cs: seq<nat>, i: int)
    requires 0 <= i < |cs|
    ensures cs[i] <= Sum(cs)
    decreases |cs|
  {
    if i > 0 {
      CountBelowSum(cs[1..], i - 1);
    }
  }

  datatype Cleared = Cleared(grid: Grid, points: nat, lines: nat)

  /** Line clearing over rows 19 down to 1, scoring each row index by its
      combo. A combo above four makes the game code index past the end of its
      score table, which is `None` here. */
  function ClearLines(g: Grid): (r: Option<Cleared>)
    requires WellFormed(g)
    ensures r.Some? ==> WellFormed(r.value.grid)
  {
    var (h, cs) := SweepRows(g);
    SweepCompacts(g);
    CompactWide(g);
    if forall i | 0 <= i < |cs| :: cs[i] < |LineScore| then Some(Cleared(h, Points(cs), Sum(cs)))
    else None
  }

  /** Closed form of line clearing: when a row in 1..19 is full, the grid
      becomes its compaction and the line count is the number of full rows;
      otherwise the grid and score are untouched. Points lie between the
      line count and twice it, and no row from 1 to 19 is left full (nor row
      0 once something was cleared). */
  lemma ClearLinesResult(g: Grid)
    requires WellFormed(g)
    ensures var r := ClearLines(g);
      r.Some? ==>
        (AnyFull(g) ==> r.value.grid == Compact(g) && r.value.lines == FullCount(g)) &&
        (!AnyFull(g) ==> r.value.grid == g && r.value.lines == 0 && r.value.points == 0) &&
        r.value.lines <= r.value.points <= 2 * r.value.lines &&
        (forall i | 1 <= i < Height :: !RowFull(r.value.grid[i])) &&
        (AnyFull(g) ==> !RowFull(r.value.grid[0]))
  {
    var cs := SweepRows(g).1;
    SweepCompacts(g);
    if ClearLines(g).Some? {
      PointsBounds(cs);
      if AnyFull(g) {
        CompactNotFull(g);
      }
    }
  }

  /** No row of a compaction is full. */
  lemma CompactNotFull(rows: seq<Row>)
    ensures forall i | 0 <= i < |Compact(rows)| :: !RowFull(Compact(rows)[i])
  {
    var e := Empties(FullCount(rows));
    EmptiesAreEmpty(|e|);
    EmptyRowNotFull();
    NonFullAreNotFull(rows);
    forall i | 0 <= i < |Compact(rows)| ensures !RowFull(Compact(rows)[i]) {
      if i < |e| {
        assert Compact(rows)[i] == EmptyRow;
      } else {
        assert Compact(rows)[i] == NonFull(rows)[i - |e|];
      }
    }
  }

  /** A compaction of field-wide rows is field-wide. */
  lemma CompactWide(rows: seq<Row>)
    requires Wide(rows)
    ensures Wide(Compact(rows))
  {
    var e := Empties(FullCount(rows));
    EmptiesAreEmpty(|e|);
    NonFullWide(rows);
    forall i | 0 <= i < |Compact(rows)| ensures |Compact(rows)[i]| == Width {
      if i < |e| {
        assert Compact(rows)[i] == EmptyRow;
      } else {
        assert Compact(rows)[i] == NonFull(rows)[i - |e|];
      }
    }
  }

  /** With at most four full rows, no combo exceeds four. */
  lemma FewFullRowsClear(g: Grid)
    requires WellFormed(g) && FullCount(g) <= 4
    ensures ClearLines(g).Some?
  {
    var cs := SweepRows(g).1;
    SweepCompacts(g);
    forall i | 0 <= i < |cs| ensures cs[i] < |LineScore| {
      CountBelowSum(cs, i);
      if !AnyFull(g) {
        SumZeros(cs);
      }
    }
  }

  /** A run of `k` full rows at the bottom, with no other full row, is
      cleared in one go at row 19: the field drops by `k` rows and scores the
      table entry for `k` once (two rows give 3, not 1 + 3). */
  lemma BottomRunScore(g: Grid, k: nat)
    requires WellFormed(g) && 0 < k <= 4
    requires forall i | Height - k <= i < Height :: RowFull(g[i])
    requires forall i | 0 <= i < Height - k :: !RowFull(g[i])
    ensures ClearLines(g) == Some(Cleared(Empties(k) + g[..Height - k], LineScore[k], k))
  {
    var n := Height;
    var (h, j) := ClearBottom(g);
    BottomRunShape(g, h, j, k, n);
    var (top, cs) := SweepRows(h[..n - 1]);
    SweepCompacts(h[..n - 1]);
    SweepUnfold(g, h, k, top, cs, n);
    SumZeros(cs);
    PointsBounds(cs);
    SumCons(k, cs);
    assert ([k] + cs)[1..] == cs;
    assert top + [h[n - 1]] == h;
  }

  /** The inner loop at the bottom row removes exactly the run, and leaves
      no full row above row 19. */
  lemma BottomRunShape(g: seq<Row>, h: seq<Row>, j: nat, k: nat, n: nat)
    requires n == |g| >= 2 && ClearBottom(g) == (h, j) && 0 < k < n
    requires forall i | n - k <= i < n :: RowFull(g[i])
    requires forall i | 0 <= i < n - k :: !RowFull(g[i])
    ensures j == k && |h| == n && h == Empties(k) + g[..n - k] && !AnyFull(h[..n - 1])
  {
    assert !RowFull(g[n - 1 - k]);
    ClearBottomShape(g, h, j, n);
    assert j == k;
    var above := h[..n - 1];
    EmptiesAreEmpty(k);
    EmptyRowNotFull();
    forall i | 1 <= i < |above| ensures !RowFull(above[i]) {
      if i < k {
        assert above[i] == Empties(k)[i];
      } else {
        assert above[i] == g[i - k];
      }
    }
  }
}

=== FILE: tetromino.dfy ===
/** A falling piece: its pose, the collision and grounded tests against the
    grid, unconditional moves, and rotation with the wall-kick tables. */
module Tetromino {
  import opened Wrappers
  import opened Blocks

  /** A piece in play. Times are integer milliseconds; a `lockStart` of 0 or
      less means the lock timer is not running. */
  datatype Piece = Piece(kind: Kind, pos: Pos, angle: Angle, lockStart: int, lastDrop: int)

  /** A freshly created piece: angle 0, lock timer off, drop clock started now. */
  function NewPiece(k: Kind, pos: Pos, now: int): Piece
  {
    Piece(k, pos, 0, 0, now)
  }

  // ---------------------------------------------------------------- angles

  function TurnClockwise(a: Angle): (r: Angle)
    ensures r == (a + 1) % 4
  {
    var b := a + 1;
    if b == 4 then 0 else b
  }

  function TurnCounterclockwise(a: Angle): (r: Angle)
    ensures r == (a + 3) % 4
  {
    var b := a - 1;
    if b == -1 then 3 else b
  }

  /** The two turns undo each other, and four turns either way are the identity. */
  lemma TurnsInverse(a: Angle)
    ensures TurnCounterclockwise(TurnClockwise(a)) == a
    ensures TurnClockwise(TurnCounterclockwise(a)) == a
    ensures TurnClockwise(TurnClockwise(TurnClockwise(TurnClockwise(a)))) == a
    ensures TurnCounterclockwise(TurnCounterclockwise(TurnCounterclockwise(TurnCounterclockwise(a)))) == a
  {
  }

  /** The angle a rotation in the given direction aims for. */
  function Target(a: Angle, clockwise: bool): Angle
  {
    if clockwise then TurnClockwise(a) else TurnCounterclockwise(a)
  }

  // ------------------------------------------------------------ movement

  function MoveLeft(p: Piece): Piece
  {
    p.(pos := Pos(p.pos.x - 1, p.pos.y))
  }

  function MoveRight(p: Piece): Piece
  {
    p.(pos := Pos(p.pos.x + 1, p.pos.y))
  }

  /** One row down; restarts the drop clock. */
  function Drop(p: Piece, now: int): Piece
  {
    p.(pos := Pos(p.pos.x, p.pos.y + 1), lastDrop := now)
  }

  /** Moving left and right are inverse, and neither touches anything but the column. */
  lemma MovesInverse(p: Piece)
    ensures MoveRight(MoveLeft(p)) == p && MoveLeft(MoveRight(p)) == p
    ensures MoveLeft(p).pos.y == p.pos.y && MoveLeft(p).(pos := p.pos) == p
    ensures Drop(p, p.lastDrop).pos.x == p.pos.x && Drop(p, p.lastDrop).(pos := p.pos) == p
  {
  }

  // ----------------------------------------------------------- collision

  /** An absolute cell a piece may not occupy: outside columns 0..9, below
      row 19, or on a filled cell of the visible field. Rows above 0 inside
      the columns are free. */
  predicate CellBlocked(g: Grid, ax: int, ay: int)
    requires WellFormed(g)
  {
    ax < 0 || ax > Width - 1 || ay > Height - 1 || (ay >= 0 && g[ay][ax] != Empty)
  }

  /** The game code's collision test: some cell of the shape, with its box
      at `pos`, is off the sides, below the floor, or on a filled cell of the
      visible field. Its row-by-row scan stops at the first such cell, which
      does not change the answer. */
  predicate Collides(k: Kind, a: Angle, pos: Pos, g: Grid)
    requires WellFormed(g)
  {
    exists cy, cx | 0 <= cy < Dim(k) && 0 <= cx < Dim(k) :: Covers(k, a, cx, cy) && CellBlocked(g, pos.x + cx, pos.y + cy)
  }

  /** Cell (cx, cy) of the shape's box at `pos` is part of the shape and
      blocked. */
  predicate HitAt(k: Kind, a: Angle, pos: Pos, g: Grid, cx: int, cy: int)
    requires WellFormed(g)
  {
    Covers(k, a, cx, cy) && CellBlocked(g, pos.x + cx, pos.y + cy)
  }

  /** Some cell in box row `cy` is part of the shape and blocked. */
  predicate RowHit(k: Kind, a: Angle, pos: Pos, g: Grid, cy: int)
    requires WellFormed(g)
  {
    exists cx | 0 <= cx < Dim(k) :: HitAt(k, a, pos, g, cx, cy)
  }

  /** A hit in one box row is a collision. */
  lemma RowHitCollides(k: Kind, a: Angle, pos: Pos, g: Grid, cy: int)
    requires WellFormed(g) && 0 <= cy < Dim(k) && RowHit(k, a, pos, g, cy)
    ensures Collides(k, a, pos, g)
  {
    var cx :| 0 <= cx < Dim(k) && HitAt(k, a, pos, g, cx, cy);
    assert Covers(k, a, cx, cy) && CellBlocked(g, pos.x + cx, pos.y + cy);
  }

  /** With no hit in any box row there is no collision. */
  lemma NoRowHitIsFree(k: Kind, a: Angle, pos: Pos, g: Grid)
    requires WellFormed(g) && forall cy | 0 <= cy < Dim(k) :: !RowHit(k, a, pos, g, cy)
    ensures !Collides(k, a, pos, g)
  {
    forall cy, cx | 0 <= cy < Dim(k) && 0 <= cx < Dim(k)
      ensures !(Covers(k, a, cx, cy) && CellBlocked(g, pos.x + cx, pos.y + cy))
    {
      assert !RowHit(k, a, pos, g, cy);
      assert !HitAt(k, a, pos, g, cx, cy);
    }
  }

  /** The collision test as the game code runs it: box rows top to bottom,
      each scanned by `CheckRow`. It answers exactly `Collides`. */
  method CheckIntersection(k: Kind, a: Angle, pos: Pos, g: Grid) returns (hit: bool)
    requires WellFormed(g)
    ensures hit <==> Collides(k, a, pos, g)
  {
    var y := 0;
    while y < Dim(k)
      invariant 0 <= y <= Dim(k)
      invariant forall cy | 0 <= cy < y :: !RowHit(k, a, pos, g, cy)
    {
      hit := CheckRow(k, a, pos, g, y);
      if hit {
        RowHitCollides(k, a, pos, g, y);
        return;
      }
      y := y + 1;
    }
    NoRowHitIsFree(k, a, pos, g);
    return false;
  }

  /** One box row of the game code's collision test, left to right, reading
      the bitmap: a cell off the sides or below the floor hits, a cell above
      the field is skipped, a cell on a filled square hits. */
  method CheckRow(k: Kind, a: Angle, pos: Pos, g: Grid, y: int) returns (hit: bool)
    requires WellFormed(g) && 0 <= y < Dim(k)
    ensures hit <==> RowHit(k, a, pos, g, y)
  {
    var x := 0;
    while x < Dim(k)
      invariant 0 <= x <= Dim(k)
      invariant forall cx | 0 <= cx < x :: !HitAt(k, a, pos, g, cx, y)
    {
      CoversIsBitmap(k, a, x, y);
      if Bit(Bitmap(k, a), BoxBit(k, x, y)) {
        if pos.x + x < 0 || pos.x + x > Width - 1 || pos.y + y > Height - 1 {
          assert HitAt(k, a, pos, g, x, y);
          return true;
        } else if pos.y + y < 0 {
        } else if g[pos.y + y][pos.x + x] != Empty {
          assert HitAt(k, a, pos, g, x, y);
          return true;
        }
      }
      x := x + 1;
    }
    return false;
  }

  /** Cells pushed past the floor always collide, whatever the grid holds. */
  lemma BelowFloorCollides(k: Kind, a: Angle, pos: Pos, g: Grid)
    requires WellFormed(g) && pos.y >= Height
    ensures Collides(k, a, pos, g)
  {
    var c := SomeCell(k, a);
    assert CellBlocked(g, pos.x + c.x, pos.y + c.y);
  }

  /** Every pose reaching past the floor collides. This is the implication
      form of `BelowFloorCollides`, for proofs that meet poses on both sides
      of the floor and would otherwise need a case split at each call. */
  lemma FloorBound(k: Kind, a: Angle, pos: Pos, g: Grid)
    requires WellFormed(g)
    ensures pos.y >= Height ==> Collides(k, a, pos, g)
  {
    if pos.y >= Height {
      BelowFloorCollides(k, a, pos, g);
    }
  }

  // ------------------------------------------------------------ grounded

  /** Python's reading of a row index in -20..19: negative indices count from the bottom. */
  function PyRow(i: int): (r: int)
    requires -Height <= i < Height
    ensures 0 <= r < Height
  {
    if i < 0 then i + Height else i
  }

  /** Every cell can be used as a Python index into the grid. */
  predicate Indexable(k: Kind, a: Angle, pos: Pos)
  {
    forall cy, cx | 0 <= cy < Dim(k) && 0 <= cx < Dim(k) && Covers(k, a, cx, cy) ::
      0 <= pos.x + cx < Width && -Height <= pos.y + cy < Height
  }

  /** The game code's grounded test: some cell sits on the floor row
      or above a filled cell, the row below being read the Python way. */
  predicate Grounded(k: Kind, a: Angle, pos: Pos, g: Grid)
    requires WellFormed(g) && Indexable(k, a, pos)
  {
    exists cy, cx | 0 <= cy < Dim(k) && 0 <= cx < Dim(k) && Covers(k, a, cx, cy) ::
      (pos.y + cy + 1 == Height || g[PyRow(pos.y + cy + 1)][pos.x + cx] != Empty)
  }

  /** No cell lies above row -1, so the grounded test never wraps. */
  predicate NoWrap(k: Kind, a: Angle, pos: Pos)
  {
    forall cy, cx | 0 <= cy < Dim(k) && 0 <= cx < Dim(k) && Covers(k, a, cx, cy) :: pos.y + cy >= -1
  }

  /** A blocked row below is always seen as grounded. */
  lemma BlockedBelowIsGrounded(k: Kind, a: Angle, pos: Pos, g: Grid)
    requires WellFormed(g) && Indexable(k, a, pos)
    requires Collides(k, a, Pos(pos.x, pos.y + 1), g)
    ensures Grounded(k, a, pos, g)
  {
    var cy, cx :| 0 <= cy < Dim(k) && 0 <= cx < Dim(k) && Covers(k, a, cx, cy) && CellBlocked(g, pos.x + cx, pos.y + 1 + cy);
    assert 0 <= pos.x + cx < Width && -Height <= pos.y + cy < Height;
    assert pos.y + cy + 1 == Height || g[PyRow(pos.y + cy + 1)][pos.x + cx] != Empty;
  }

  /** Without wrap-around, grounded means the pose one row lower collides. */
  lemma GroundedIsBlockedBelow(k: Kind, a: Angle, pos: Pos, g: Grid)
    requires WellFormed(g) && Indexable(k, a, pos) && NoWrap(k, a, pos)
    requires Grounded(k, a, pos, g)
    ensures Collides(k, a, Pos(pos.x, pos.y + 1), g)
  {
    var cy, cx :| 0 <= cy < Dim(k) && 0 <= cx < Dim(k) && Covers(k, a, cx, cy) &&
      (pos.y + cy + 1 == Height || g[PyRow(pos.y + cy + 1)][pos.x + cx] != Empty);
    assert CellBlocked(g, pos.x + cx, pos.y + 1 + cy);
  }

  /** Some cell above row -1 sits over a filled cell, the row below it being
      read from the bottom of the field as Python's negative index does. */
  predicate WrapGrounded(k: Kind, a: Angle, pos: Pos, g: Grid)
    requires WellFormed(g) && Indexable(k, a, pos)
  {
    exists cy, cx | 0 <= cy < Dim(k) && 0 <= cx < Dim(k) && Covers(k, a, cx, cy) && pos.y + cy + 1 < 0 ::
      g[pos.y + cy + 1 + Height][pos.x + cx] != Empty
  }

  /** A filled cell read through the wrap grounds the piece. */
  lemma WrapIsGrounded(k: Kind, a: Angle, pos: Pos, g: Grid)
    requires WellFormed(g) && Indexable(k, a, pos) && WrapGrounded(k, a, pos, g)
    ensures Grounded(k, a, pos, g)
  {
    var cy, cx :| 0 <= cy < Dim(k) && 0 <= cx < Dim(k) && Covers(k, a, cx, cy) && pos.y + cy + 1 < 0 &&
      g[pos.y + cy + 1 + Height][pos.x + cx] != Empty;
    assert PyRow(pos.y + cy + 1) == pos.y + cy + 1 + Height;
  }

  /** Grounded with a free row below can only come from the wrap. */
  lemma GroundedFreeIsWrap(k: Kind, a: Angle, pos: Pos, g: Grid)
    requires WellFormed(g) && Indexable(k, a, pos) && Grounded(k, a, pos, g)
    requires !Collides(k, a, Pos(pos.x, pos.y + 1), g)
    ensures WrapGrounded(k, a, pos, g)
  {
    var cy, cx :| 0 <= cy < Dim(k) && 0 <= cx < Dim(k) && Covers(k, a, cx, cy) &&
      (pos.y + cy + 1 == Height || g[PyRow(pos.y + cy + 1)][pos.x + cx] != Empty);
    assert !CellBlocked(g, pos.x + cx, pos.y + 1 + cy);
  }

  /** The grounded test holds exactly when the pose one row lower collides
      or a cell above row -1 reads a filled cell through the wrap. */
  lemma GroundedIffBlockedOrWrapped(k: Kind, a: Angle, pos: Pos, g: Grid)
    requires WellFormed(g) && Indexable(k, a, pos)
    ensures Grounded(k, a, pos, g) <==> Collides(k, a, Pos(pos.x, pos.y + 1), g) || WrapGrounded(k, a, pos, g)
  {
    if Collides(k, a, Pos(pos.x, pos.y + 1), g) {
      BlockedBelowIsGrounded(k, a, pos, g);
    }
    if WrapGrounded(k, a, pos, g) {
      WrapIsGrounded(k, a, pos, g);
    }
    if Grounded(k, a, pos, g) && !Collides(k, a, Pos(pos.x, pos.y + 1), g) {
      GroundedFreeIsWrap(k, a, pos, g);
    }
  }

  /** Grounded exactly when the pose one row lower collides, as long as the
      test does not wrap; a blocked row below is always seen as grounded.
      This is the no-wrap case of `GroundedIffBlockedOrWrapped`, kept because
      every piece that stays inside the field is in that case. */
  lemma GroundedIffBlockedBelow(k: Kind, a: Angle, pos: Pos, g: Grid)
    requires WellFormed(g) && Indexable(k, a, pos)
    ensures Collides(k, a, Pos(pos.x, pos.y + 1), g) ==> Grounded(k, a, pos, g)
    ensures NoWrap(k, a, pos) && Grounded(k, a, pos, g) ==> Collides(k, a, Pos(pos.x, pos.y + 1), g)
  {
    if Collides(k, a, Pos(pos.x, pos.y + 1), g) {
      BlockedBelowIsGrounded(k, a, pos, g);
    }
    if NoWrap(k, a, pos) && Grounded(k, a, pos, g) {
      GroundedIsBlockedBelow(k, a, pos, g);
    }
  }

  /** Restart the lock timer (and the drop clock) when grounded, stop it otherwise. */
  function CheckGrounded(p: Piece, g: Grid, now: int): (r: Piece)
    requires WellFormed(g) && Indexable(p.kind, p.angle, p.pos)
    ensures r.(lockStart := p.lockStart, lastDrop := p.lastDrop) == p
    ensures Collides(p.kind, p.angle, Pos(p.pos.x, p.pos.y + 1), g) ==>
              r.lockStart == now && r.lastDrop == now
    ensures NoWrap(p.kind, p.angle, p.pos) && !Collides(p.kind, p.angle, Pos(p.pos.x, p.pos.y + 1), g) ==>
              r.lockStart == 0 && r.lastDrop == p.lastDrop
    ensures WrapGrounded(p.kind, p.angle, p.pos, g) ==> r.lockStart == now && r.lastDrop == now
    ensures !Collides(p.kind, p.angle, Pos(p.pos.x, p.pos.y + 1), g) && !WrapGrounded(p.kind, p.angle, p.pos, g) ==>
              r.lockStart == 0 && r.lastDrop == p.lastDrop
  {
    GroundedIffBlockedBelow(p.kind, p.angle, p.pos, g);
    GroundedIffBlockedOrWrapped(p.kind, p.angle, p.pos, g);
    if Grounded(p.kind, p.angle, p.pos, g) then p.(lockStart := now, lastDrop := now)
    else p.(lockStart := 0)
  }

  /** The wrap at work: a vertical I piece whose box stands at (3, -3)
      has its cells in column 5, rows -3..0. On a field whose only filled
      cell is (5, 18) it can fall a row, yet the grounded test reads row 18
      below its top cell and starts the lock timer. */
  lemma WrapGroundsFreePiece(now: int)
    ensures var g := EmptyGrid()[18 := EmptyGrid()[18][5 := I]];
            var p := Piece(I, Pos(3, -3), 1, 0, 0);
            WellFormed(g) && Indexable(I, 1, p.pos) &&
            !Collides(I, 1, Pos(3, -2), g) && WrapGrounded(I, 1, p.pos, g) &&
            CheckGrounded(p, g, now).lockStart == now
  {
    var g := EmptyGrid()[18 := EmptyGrid()[18][5 := I]];
    assert WellFormed(g);
    assert Covers(I, 1, 2, 0) && g[-3 + 0 + 1 + Height][3 + 2] != Empty;
  }

  // ------------------------------------------------------------- placement

  /** The pose invariant the session keeps for every piece it holds: each
      cell is inside the columns and not below the floor, and the
      box is at most one field height above the top. */
  predicate Placed(p: Piece)
  {
    p.pos.y >= -Height &&
    forall cy, cx | 0 <= cy < Dim(p.kind) && 0 <= cx < Dim(p.kind) && Covers(p.kind, p.angle, cx, cy) ::
      0 <= p.pos.x + cx < Width && p.pos.y + cy < Height
  }


  /** A pose that does not collide keeps every cell inside the columns and above the floor. */
  lemma FreeIsPlaced(p: Piece, g: Grid)
    requires WellFormed(g) && !Collides(p.kind, p.angle, p.pos, g) && p.pos.y >= -Height
    ensures Placed(p)
  {
    forall cy, cx | 0 <= cy < Dim(p.kind) && 0 <= cx < Dim(p.kind) && Covers(p.kind, p.angle, cx, cy)
      ensures 0 <= p.pos.x + cx < Width && p.pos.y + cy < Height
    {
      assert !CellBlocked(g, p.pos.x + cx, p.pos.y + cy);
    }
  }

  /** A new piece at the spawn column, one row above the field or at its top, is placed. */
  lemma SpawnIsPlaced(k: Kind, y: int, now: int)
    requires -1 <= y <= 0
    ensures Placed(NewPiece(k, Pos(Width / 2 - 1, y), now))
  {
  }

  // ------------------------------------------------------------- kicks

  /** The kick offsets tried, in order, when turning from angle `a`. The
      tables are the game code's, including its sign convention. */
  function Kicks(k: Kind, clockwise: bool, a: Angle): (r: seq<(int, int)>)
    ensures |r| == 5 && r[0] == (0, 0)
  {
    if clockwise then
      if k == I then
        [[(0, 0), (-2, 0), (1, 0), (-2, -1), (1, 2)],
         [(0, 0), (-1, 0), (2, 0), (-1, 2), (2, -1)],
         [(0, 0), (2, 0), (-1, 0), (2, 1), (-1, -2)],
         [(0, 0), (1, 0), (-2, 0), (1, -2), (-2, 1)]][a]
      else
        [[(0, 0), (-1, 0), (-1, 1), (0, -2), (-1, -2)],
         [(0, 0), (1, 0), (1, -1), (0, 2), (1, 2)],
         [(0, 0), (1, 0), (1, 1), (0, -2), (1, -2)],
         [(0, 0), (-1, 0), (-1, -1), (0, 2), (-1, 2)]][a]
    else
      if k == I then
        [[(0, 0), (-1, 0), (2, 0), (-1, 2), (2, -1)],
         [(0, 0), (2, 0), (-1, 0), (2, 1), (-1, -2)],
         [(0, 0), (1, 0), (-2, 0), (1, -2), (-2, 1)],
         [(0, 0), (-2, 0), (1, 0), (-2, -1), (1, 2)]][a]
      else
        [[(0, 0), (1, 0), (1, 1), (0, -2), (1, -2)],
         [(0, 0), (1, 0), (1, -1), (0, 2), (1, 2)],
         [(0, 0), (-1, 0), (-1, 1), (0, -2), (-1, -2)],
         [(0, 0), (-1, 0), (-1, -1), (0, 2), (-1, 2)]][a]
  }

  /** Both offset components are subtracted from the position. */
  function Kicked(pos: Pos, off: (int, int)): Pos
  {
    Pos(pos.x - off.0, pos.y - off.1)
  }

  /** Every kick that lifts the piece (positive second component) lifts it by
      at most two rows and comes after the kick with the same column shift
      and no lift. */
  lemma UpwardKicksFollowLevelKick(k: Kind, clockwise: bool, a: Angle, i: nat)
    requires i < 5
    ensures Kicks(k, clockwise, a)[i].1 <= 2
    ensures Kicks(k, clockwise, a)[i].1 > 0 ==>
              exists j :: 0 <= j < i && Kicks(k, clockwise, a)[j] == (Kicks(k, clockwise, a)[i].0, 0)
  {
    var r := Kicks(k, clockwise, a);
    if r[i].1 > 0 {
      if r[1] == (r[i].0, 0) {
      } else if r[2] == (r[i].0, 0) {
      } else {
        assert r[0] == (r[i].0, 0);
      }
    }
  }

  /** Index of the first offset in `offs[from..]` whose pose is free. */
  function FirstFree(k: Kind, a: Angle, pos: Pos, offs: seq<(int, int)>, g: Grid, from: nat): (r: Option<nat>)
    requires WellFormed(g) && from <= |offs|
    ensures r.Some? ==> from <= r.value < |offs| && !Collides(k, a, Kicked(pos, offs[r.value]), g)
    ensures r.Some? ==> forall j :: from <= j < r.value ==> Collides(k, a, Kicked(pos, offs[j]), g)
    ensures r.None? ==> forall j :: from <= j < |offs| ==> Collides(k, a, Kicked(pos, offs[j]), g)
    decreases |offs| - from
  {
    if from == |offs| then None
    else if !Collides(k, a, Kicked(pos, offs[from]), g) then Some(from)
    else FirstFree(k, a, pos, offs, g, from + 1)
  }

  /** Rotation with wall kicks: the first of the five candidate poses that
      does not collide is taken; if all collide the rotation fails. */
  function TryTurn(p: Piece, g: Grid, clockwise: bool): (r: Option<Piece>)
    requires WellFormed(g)
    ensures r.Some? ==>
      var offs := Kicks(p.kind, clockwise, p.angle);
      r.value == p.(pos := r.value.pos, angle := Target(p.angle, clockwise)) &&
      !Collides(p.kind, r.value.angle, r.value.pos, g) &&
      exists i :: 0 <= i < 5 && r.value.pos == Kicked(p.pos, offs[i]) &&
        forall j :: 0 <= j < i ==> Collides(p.kind, r.value.angle, Kicked(p.pos, offs[j]), g)
    ensures r.None? <==>
      forall i :: 0 <= i < 5 ==>
        Collides(p.kind, Target(p.angle, clockwise), Kicked(p.pos, Kicks(p.kind, clockwise, p.angle)[i]), g)
    ensures !Collides(p.kind, Target(p.angle, clockwise), p.pos, g) ==>
      r == Some(p.(angle := Target(p.angle, clockwise)))
  {
    var t := Target(p.angle, clockwise);
    var offs := Kicks(p.kind, clockwise, p.angle);
    assert Kicked(p.pos, offs[0]) == p.pos;
    match FirstFree(p.kind, t, p.pos, offs, g, 0)
    case None => None
    case Some(i) => Some(p.(pos := Kicked(p.pos, offs[i]), angle := t))
  }

  /** If a pose collides and the same pose lifted by some rows does not, the
      collision was inside the field or below it, so the box reached row 0. */
  lemma LiftOnlyNearField(k: Kind, a: Angle, x: int, y: int, up: int, g: Grid)
    requires WellFormed(g) && up > 0
    requires Collides(k, a, Pos(x, y), g) && !Collides(k, a, Pos(x, y - up), g)
    ensures y >= 1 - Dim(k)
  {
    var cy, cx :| 0 <= cy < Dim(k) && 0 <= cx < Dim(k) && Covers(k, a, cx, cy) && CellBlocked(g, x + cx, y + cy);
    assert !CellBlocked(g, x + cx, y - up + cy);
  }

  /** Taking the first free offset keeps a placed piece placed, provided
      every lifting offset comes after a level one with the same column shift. */
  lemma FirstFreeKickKeepsPlaced(p: Piece, g: Grid, t: Angle, offs: seq<(int, int)>, i: nat)
    requires WellFormed(g) && Placed(p) && i < |offs|
    requires offs[i].1 <= 2
    requires offs[i].1 > 0 ==> exists j :: 0 <= j < i && offs[j] == (offs[i].0, 0)
    requires forall j :: 0 <= j < i ==> Collides(p.kind, t, Kicked(p.pos, offs[j]), g)
    requires !Collides(p.kind, t, Kicked(p.pos, offs[i]), g)
    ensures Placed(p.(pos := Kicked(p.pos, offs[i]), angle := t))
  {
    var q := p.(pos := Kicked(p.pos, offs[i]), angle := t);
    if offs[i].1 > 0 {
      var j :| 0 <= j < i && offs[j] == (offs[i].0, 0);
      assert Kicked(p.pos, offs[j]) == Pos(q.pos.x, p.pos.y);
      LiftOnlyNearField(p.kind, t, q.pos.x, p.pos.y, offs[i].1, g);
    }
    FreeIsPlaced(q, g);
  }

  /** A successful rotation keeps a placed piece placed: a lifting kick is
      only reached when the level kick with the same column shift hit
      something inside the field, so the box was at most three rows above
      the top and ends at most five rows above it. */
  lemma TryTurnKeepsPlaced(p: Piece, g: Grid, clockwise: bool)
    requires WellFormed(g) && Placed(p) && TryTurn(p, g, clockwise).Some?
    ensures Placed(TryTurn(p, g, clockwise).value)
  {
    var t := Target(p.angle, clockwise);
    var offs := Kicks(p.kind, clockwise, p.angle);
    var i := FirstFree(p.kind, t, p.pos, offs, g, 0).value;
    UpwardKicksFollowLevelKick(p.kind, clockwise, p.angle, i);
    FirstFreeKickKeepsPlaced(p, g, t, offs, i);
  }
}
